=== FILE: README.md ===
# CloudVault in Dafny

CloudVault is an iOS vault app. It keeps assets (images, texts, PDFs, movies, other data) in
folders of the app's container, packages each asset with its metadata in a directory
`FileWrapper`, and writes monthly log files. This project models the core of that app and
proves properties of the model:

- **Repositories.**
  - `InMemoryRepository` is a class whose folder list and file/wrapper dictionaries change in place. It is proved against the pure state functions of `InMemoryStore`.
  - `Repository` (the disk-backed base class) is modelled over an abstract disk map: the error type, `root(for:)`, `parseError`, and the branching of `fileExists`/`folderExists`/`loadFile`.
  - `RepositoryFile` is a class with its lazy, memoised `data` cache.
  - `getValidValues` is `Result+GetNilOrEmpty`.
- **`AppRepository`.**
  - The `Shared`/`Data`/`System` folder layout, package paths and the destination of a move.
  - The start-up sequence (`initializeFolders`, `initializeFiles`, `reload`) as a class over `InMemoryRepository`. `AppRepository`'s initialiser takes its repository as a parameter. The app itself passes the disk-backed `Repository` (CloudVault/Application/AppRepository.swift:38), whose I/O is left out, while the tests pass an `InMemoryRepository`. This model fixes the in-memory one.
  - The `clear*Folder` loops, saving, moving and removing packages, and appending to logs.
- **Log file names** of `AppSystem+Values`: `YYYY-MM_<prefix>.log`.
- **Asset packages.**
  - `AssetPackage` (status, metadata, asset, URL; equality by id).
  - Its two-entry directory wrapper (`metadata.data`, `asset.data`) and the way it is read back from disk.
  - `AssetTools.assetType` and the no-key short-circuit of `encrypt`/`decrypt`.
- **`FileRepository`.** The singleton that works on the real disk. Each disk effect is a function parameter that either succeeds or throws a code. The model covers the unresolved-container guard, error mapping, `clearFolder`, `fileType` and `getBaseUrl`.
- **Views.**
  - The navigation options and the chunking of the main screen's buttons into rows.
  - The card stack's "bring to front" reorder.
  - The expandable list's toggle.

Behaviour of the source that the model keeps as written. The first four items and the last are behaviour of `AppRepository` over `InMemoryRepository`, not of the app as shipped. Over the disk-backed `Repository`, five things differ: `listFolder` lists the directory without an inverted guard; `folderExists` probes the URL's path; `createFolder` creates the directory; `appendToFile` on a missing file fails with `undefined` instead of creating it; and a saved package is a `.pckg` directory on disk, so it is listed and seen as a file.
- `InMemoryRepository.listFolder` fails on a registered folder and lists an unregistered one, so the guard is inverted. With the folders that the start-up registers, `inbox` and `assets` are empty after `init` (`AppRepositories.AppRepository.constructor`).
- `createFolder` stores a URL as given (`documents/System`), but `createFile` looks up the parent in directory form (`documents/System/`). So the synchronous part of the start-up (`initializeFolders` then `initializeFiles`) creates the three log files only when `System/` was one of the repository's initial folders. This is proved both ways by `LogFilesNeedSystemFolderInDirectoryForm` and `LogFilesCreatedWithSystemFolderInDirectoryForm`.
- The log listeners do not go through that check. A missing folder or file makes the start-up call `logDiagnose`, and the diagnose listener passes the line to `appendLogToFile`. That runs `initializeFiles` again and then `appendToFile`, which creates a missing file without looking for its folder. So one diagnose line creates the diagnose log even when `System/` was never registered (`DiagnoseAppendCreatesLog`).
- `appendToFile` on a missing file creates it without checking its folder.
- `FileRepository.fileType` has no movie case, so `.mov`/`.mp4` are `.data` there and `.movie` in `AssetTools`.
- Over `InMemoryRepository`, a package saved by `saveOnSharedFolder` goes into the wrapper dictionary. It is therefore never listed or seen as a file there.

## Model

| member | source | states |
|---|---|---|
| Repository.Description | CloudVault/Services/Repository.swift:22-35 | the four plain cases show the localised text of their own key; the three cases with a name show the localised text, " -> ", the name and "!"; the remaining unlisted case gives "Error not identified!" |
| Repository.ErrorEquality | CloudVault/Services/Repository.swift:11-20 | two errors are equal exactly when they have the same case and the same associated string (the synthesised `Equatable`) |
| Repository.ParseError | CloudVault/Services/Repository.swift:246-259 | code 257 maps to `permissionDenied` and every other code to `undefined` |
| Repository.Root | CloudVault/Services/Repository.swift:74-96 | every container except the app group resolves to the documents folder; the app group resolves to its group container when the id is set and the container exists, otherwise to the documents folder |
| Repository.DiskFileExists | CloudVault/Services/Repository.swift:98-103 | never fails; true for any entry on disk, file or directory |
| Repository.DiskFolderExists | CloudVault/Services/Repository.swift:105-111 | never fails; true exactly for an entry that is a directory |
| Repository.DiskLoadFile | CloudVault/Services/Repository.swift:137-150 | succeeds exactly for an existing entry, with a file description that has no data preloaded; otherwise `fileDoNotExist` carries the last path component |
| RepositoryFiles.RepositoryFile.constructor | CloudVault/Services/RepositoryFile.swift:15-18 | a file built from its URL starts with nothing cached |
| RepositoryFiles.RepositoryFile.WithData | CloudVault/Services/RepositoryFile.swift:20-23 | a file built with data caches exactly that data |
| RepositoryFiles.RepositoryFile.FromDescriptor | CloudVault/Services/Repository+InMemory.swift:83 | a repository's file description becomes a file whose cache is the preloaded data |
| RepositoryFiles.RepositoryFile.Data | CloudVault/Services/RepositoryFile.swift:25-31 | a cached value is returned without loading; otherwise the load result is returned and becomes the cache, and the load count grows by one |
| RepositoryFiles.RepositoryFile.Id | CloudVault/Services/RepositoryFile.swift:36 | the id is the URL's string |
| RepositoryFiles.RepositoryFile.Description | CloudVault/Services/RepositoryFile.swift:37 | the description equals the id |
| RepositoryFiles.ReadPreloaded | CloudVault/Services/RepositoryFile.swift:20-29 | a file built with data serves that data on every read, whatever the disk holds |
| RepositoryFiles.ReadLazily | CloudVault/Services/RepositoryFile.swift:15-29 | the first read loads from disk; the second read returns the memoised value even after the disk changes |
| RepositoryFiles.ReadAfterFailedLoad | CloudVault/Services/RepositoryFile.swift:25-31 | a failed load is not memoised, so the next read sees the new disk content |
| ValidValues.CompactMap | CloudVault/Extensions/Result+GetNilOrEmpty.swift:18 | the cast of every element that casts is kept, nothing else is kept, and the result is never longer than the input |
| ValidValues.GetValidValues | CloudVault/Extensions/Result+GetNilOrEmpty.swift:12-20 | a failure gives the empty list; a success gives at most as many values as it holds |
| ValidValues.CompactMapAppend | CloudVault/Extensions/Result+GetNilOrEmpty.swift:18 | the filter distributes over concatenation, so order is kept |
| ValidValues.CompactMapMembership | CloudVault/Extensions/Result+GetNilOrEmpty.swift:18 | a value is kept exactly when some element casts to it |
| ValidValues.CompactMapAllCast | CloudVault/Extensions/Result+GetNilOrEmpty.swift:18 | when every element casts, the result has the input's length and holds each element's cast at the same position |
| ValidValues.GetValidValuesIdentity | CloudVault/Extensions/Result+GetNilOrEmpty.swift:12-20 | casting a successful list to its own element type gives the list back |
| InMemoryStore.Normalized | CloudVault/Services/Repository+InMemory.swift:18 | every initial folder is stored in directory (trailing-slash) form, one for one |
| InMemoryStore.InitFolderFound | CloudVault/Services/Repository+InMemory.swift:16-38 | after `init`, a URL is a folder exactly when it is the directory form of an initial folder |
| InMemoryStore.InitFolderNotFoundWithoutSlash | CloudVault/Services/Repository+InMemory.swift:18-38 | after `init`, no URL without a trailing slash is a folder |
| InMemoryStore.CreateFolderTwice | CloudVault/Services/Repository+InMemory.swift:40-53 | after `createFolder` the folder exists; a second call fails with `folderAlreadyExist` and changes nothing |
| InMemoryStore.CreateFolderSpec | CloudVault/Services/Repository+InMemory.swift:40-53 | fails with `folderAlreadyExist(url)` and no change exactly on a registered folder; otherwise appends the URL as given and returns success(true) |
| InMemoryStore.CreateFileSpec | CloudVault/Services/Repository+InMemory.swift:95-109 | succeeds exactly when the parent folder is registered, and then the file holds exactly the data, overwriting; otherwise fails with `folderDoNotExist(parent)` and no change |
| InMemoryStore.CreateFileInRegisteredFolder | CloudVault/Services/Repository+InMemory.swift:95-109 | a file appended as a component under a folder registered in directory form is created with its data |
| InMemoryStore.CreateFileAfterSlashlessCreateFolder | CloudVault/Services/Repository+InMemory.swift:40-109 | after `createFolder` of a URL without a trailing slash, creating a file in it still fails with `folderDoNotExist` |
| InMemoryStore.AppendToAbsentFile | CloudVault/Services/Repository+InMemory.swift:113-118 | appending to an absent file stores exactly the appended bytes and succeeds, whatever the folders are |
| InMemoryStore.AppendToPresentFile | CloudVault/Services/Repository+InMemory.swift:120-130 | stored bytes that are not UTF-8 give `unableToAccessDisk`, and new bytes that are not UTF-8 give `undefined`, both with no change; otherwise the file holds the concatenation |
| InMemoryStore.AppendKeepsValid | CloudVault/Services/Repository+InMemory.swift:111-132 | appending UTF-8 text to a UTF-8 file (or a missing one) succeeds and leaves a UTF-8 file |
| InMemoryStore.AppendTwice | CloudVault/Services/Repository+InMemory.swift:111-132 | two successive appends of UTF-8 text equal one append of the concatenation |
| InMemoryStore.AppendConcatenates | CloudVault/Services/Repository+InMemory.swift:128-130 | a successful append to a present file changes only that file, to the old bytes followed by the new |
| InMemoryStore.RemoveFileSpec | CloudVault/Services/Repository+InMemory.swift:134-147 | removing an absent file fails with `fileDoNotExist` and no change; removing a present one drops that key only |
| InMemoryStore.CreateThenRemoveRestores | CloudVault/Services/Repository+InMemory.swift:95-147 | creating an absent file and removing it again gives back the original store |
| InMemoryStore.WrapperIsNotAFile | CloudVault/Services/Repository+InMemory.swift:26-93 | saving a wrapper succeeds, and `fileExists`/`loadFile` on that URL answer as before |
| InMemoryStore.CreatedFileIsListed | CloudVault/Services/Repository+InMemory.swift:55-109 | a created file is among the files listed under every prefix of its URL |
| InMemory.InMemoryRepository.constructor | CloudVault/Services/Repository+InMemory.swift:16-24 | the state is the initial store, with the folders in directory form |
| InMemory.InMemoryRepository.Root | CloudVault/Services/Repository.swift:74-96 | with no app-group id, every container resolves to the documents folder |
| InMemory.InMemoryRepository.FileExists | CloudVault/Services/Repository+InMemory.swift:26-31 | answers the store's file-key membership |
| InMemory.InMemoryRepository.FolderExists | CloudVault/Services/Repository+InMemory.swift:33-38 | answers exact membership in the folder list |
| InMemory.InMemoryRepository.CreateFolder | CloudVault/Services/Repository+InMemory.swift:40-53 | the new state and result are those of `InMemoryStore.CreateFolder` |
| InMemory.InMemoryRepository.ListFolder | CloudVault/Services/Repository+InMemory.swift:55-72 | fails with `folderAlreadyExist` exactly on a registered folder; otherwise lists each stored file whose URL starts with the folder's, exactly once and without data |
| InMemory.InMemoryRepository.LoadFile | CloudVault/Services/Repository+InMemory.swift:74-88 | a present file comes back with its data preloaded; an absent one gives `fileDoNotExist(url)` |
| InMemory.InMemoryRepository.SaveFileWrapper | CloudVault/Services/Repository+InMemory.swift:90-93 | only the wrapper dictionary changes, and the call returns success |
| InMemory.InMemoryRepository.CreateFile | CloudVault/Services/Repository+InMemory.swift:95-109 | follows `InMemoryStore.CreateFile`, which `CreateFileSpec` characterises |
| InMemory.InMemoryRepository.AppendToFile | CloudVault/Services/Repository+InMemory.swift:111-132 | follows `InMemoryStore.AppendToFile`, which the append lemmas characterise |
| InMemory.InMemoryRepository.RemoveFile | CloudVault/Services/Repository+InMemory.swift:134-147 | follows `InMemoryStore.RemoveFile`, which `RemoveFileSpec` characterises |
| InMemory.InMemoryRepository.GetData | CloudVault/Services/Repository+InMemory.swift:149 | the stored bytes of the file, or none |
| Urls.LastComponentOfAppending | CloudVault/Application/AppRepository.swift:128-129 | appending a path component and reading the last component gives that component |
| Urls.ParentOfAppending | CloudVault/Services/Repository+InMemory.swift:97 | deleting the last component of an appended URL gives the directory form of the base |
| Utf8.ConcatValid | CloudVault/Services/Repository+InMemory.swift:120-129 | the concatenation of two UTF-8 byte strings is UTF-8 |
| Utf8.LoneContinuationInvalid | CloudVault/Services/Repository+InMemory.swift:124 | a byte string that starts with a continuation byte does not decode |
| AppRepositories.FolderLayout | CloudVault/Application/AppRepository.swift:12-68 | `Shared`, `Data` and `System` are distinct children of their root |
| AppRepositories.PackageNameIsComponent | CloudVault/Application/AppRepository.swift:100-105 | the file name `<ULID>.pckg` contains no slash, so the package lands directly in the inbox folder |
| AppRepositories.PackagePathLayout | CloudVault/Application/AppRepository.swift:100-105 | a package is saved as `<ulid>.pckg` directly under the `Shared` folder |
| AppRepositories.MoveDestinationLayout | CloudVault/Application/AppRepository.swift:126-129 | a moved file keeps its name and lands directly under the `Data` folder |
| AppRepositories.CreateFolderIfAbsent | CloudVault/Application/AppRepository.swift:182-198 | afterwards the folder is registered; an existing folder leaves the state alone; only the folder list changes |
| AppRepositories.CreateFileIfAbsent | CloudVault/Application/AppRepository.swift:284-300 | an existing file leaves the state alone; otherwise `createFile` runs |
| AppRepositories.FoldersRegistered | CloudVault/Application/AppRepository.swift:169-180 | after `initializeFolders` the three folders are registered, in slashless form, and the files are untouched |
| AppRepositories.FilesStepKeepsFolders | CloudVault/Application/AppRepository.swift:200-209 | creating the files leaves the folders and wrappers alone |
| AppRepositories.ExistingFilesKept | CloudVault/Application/AppRepository.swift:284-300 | a file that already existed keeps its content through `initializeFiles` |
| AppRepositories.NoFileWithoutParent | CloudVault/Application/AppRepository.swift:200-209 | when no parent folder is registered, `initializeFiles` changes no file |
| AppRepositories.OnlyGivenFilesCreated | CloudVault/Application/AppRepository.swift:200-209 | every file afterwards either existed before or is one of the given names |
| AppRepositories.FilesUnderRegisteredParents | CloudVault/Application/AppRepository.swift:200-209 | when every parent is registered, every given file exists afterwards, and each new one holds the initial content |
| AppRepositories.LogFilesParent | CloudVault/Application/AppRepository.swift:236-282 | all three log files live directly under the directory form of `System` |
| AppRepositories.LogFilesNeedSystemFolderInDirectoryForm | CloudVault/Application/AppRepository.swift:169-209 | unless `System/` was already registered, the start-up creates no file |
| AppRepositories.DiagnoseAppendCreatesLog | CloudVault/Application/AppRepository.swift:163-225 | after the start-up on a store without `System/` and without the month's diagnose log, one diagnose append leaves that log holding exactly the line and a line feed |
| AppRepositories.SystemFolderStaysSlashless | CloudVault/Application/AppRepository.swift:169-180 | the folder step does not register the directory form of the system folder when it was not there before |
| AppRepositories.LogFilesCreatedWithSystemFolderInDirectoryForm | CloudVault/Application/AppRepository.swift:169-209 | when `System/` was registered, all three log files exist after the start-up; a new one holds the initial content and an existing one keeps its own |
| AppRepositories.SavedPackageNotListed | CloudVault/Application/AppRepository.swift:98-117 | a saved package changes no folder listing and is not seen as a file |
| AppRepositories.AppRepository.constructor | CloudVault/Application/AppRepository.swift:38-46 | the store is the initial one after `initializeFolders` and `initializeFiles`; `inbox` and `assets` are empty |
| AppRepositories.AppRepository.Root | CloudVault/Application/AppRepository.swift:49-65 | both containers resolve to the documents folder of the in-memory repository |
| AppRepositories.AppRepository.GetFileListFromSharedFolder | CloudVault/Application/AppRepository.swift:48-52 | fails exactly when `Shared` is registered; otherwise lists the files under it |
| AppRepositories.AppRepository.GetFileListFromDataFolder | CloudVault/Application/AppRepository.swift:54-60 | fails exactly when `Data` is registered; otherwise lists the files under it |
| AppRepositories.AppRepository.GetFileListFromSystemFolder | CloudVault/Application/AppRepository.swift:62-68 | fails exactly when `System` is registered; otherwise lists the files under it |
| AppRepositories.AppRepository.ValidFiles | CloudVault/Application/AppRepository.swift:303-304 | a failed listing gives no files; a successful one gives all of them |
| AppRepositories.AppRepository.ClearListed | CloudVault/Application/AppRepository.swift:70-96 | reports success and removes exactly the files listed under the folder |
| AppRepositories.AppRepository.ClearInboxFolder | CloudVault/Application/AppRepository.swift:70-78 | removes exactly the files listed under `Shared` |
| AppRepositories.AppRepository.ClearDataFolder | CloudVault/Application/AppRepository.swift:80-87 | removes exactly the files listed under `Data` |
| AppRepositories.AppRepository.ClearSystemFolder | CloudVault/Application/AppRepository.swift:89-96 | removes exactly the files listed under `System` |
| AppRepositories.AppRepository.SaveOnSharedFolder | CloudVault/Application/AppRepository.swift:98-117 | succeeds exactly when the package encodes to a wrapper, which is saved at `Shared/<ulid>.pckg`; otherwise nothing changes |
| AppRepositories.AppRepository.MoveFileToDataFolder | CloudVault/Application/AppRepository.swift:126-140 | succeeds exactly when the move into `Data` reports success(true); a move that does not throw reloads the lists, and one that throws leaves them alone |
| AppRepositories.AppRepository.MovePackageToDataFolder | CloudVault/Application/AppRepository.swift:119-124 | a package without a URL fails with no change; otherwise its URL is moved |
| AppRepositories.AppRepository.RemoveFile | CloudVault/Application/AppRepository.swift:149-161 | succeeds exactly for a stored file, which is removed and the lists reloaded; otherwise nothing changes |
| AppRepositories.AppRepository.RemovePackage | CloudVault/Application/AppRepository.swift:142-147 | a package without a URL fails with no change; otherwise its file is removed |
| AppRepositories.AppRepository.AppendLogToFile | CloudVault/Application/AppRepository.swift:163-167 | for a message that is valid UTF-8, as the encoded string always is, re-runs `initializeFiles`, then appends the message and a line feed |
| AppRepositories.AppRepository.InitializeFolders | CloudVault/Application/AppRepository.swift:169-180 | the state afterwards is `FoldersInitialized` of the state before |
| AppRepositories.AppRepository.CreateFolderIfNotExistent | CloudVault/Application/AppRepository.swift:182-198 | follows `CreateFolderIfAbsent` |
| AppRepositories.AppRepository.InitializeFiles | CloudVault/Application/AppRepository.swift:200-209 | the three log files are created if absent, in order, as `FilesCreatedIfAbsent` says |
| AppRepositories.AppRepository.CreateFilesIfNotExistent | CloudVault/Application/AppRepository.swift:200-209 | each given file is created if absent, one after the other, leaving the store `FilesCreatedIfAbsent` describes |
| AppRepositories.AppRepository.CreateFileIfNotExistent | CloudVault/Application/AppRepository.swift:284-300 | follows `CreateFileIfAbsent` |
| AppRepositories.AppRepository.Reload | CloudVault/Application/AppRepository.swift:302-306 | `inbox` and `assets` become the valid values of the `Shared` and `Data` listings |
| LogNames.NatText | CloudVault/Application/AppSystem+Values.swift:24 | the decimal text of a year is non-empty and all digits, and one digit long exactly below ten |
| LogNames.MonthIsTwoDigits | CloudVault/Application/AppSystem+Values.swift:24 | `%02d` of a month is two digits, with a leading zero below ten |
| LogNames.Pad2Injective | CloudVault/Application/AppSystem+Values.swift:24 | different months have different padded texts |
| LogNames.NatTextInjective | CloudVault/Application/AppSystem+Values.swift:24 | different years have different decimal texts |
| LogNames.LogFileNameInjective | CloudVault/Application/AppSystem+Values.swift:18-49 | each (year, month) gives its own file name for a prefix, so months never share a log |
| LogNames.ThreeLogsDiffer | CloudVault/Application/AppSystem+Values.swift:9-49 | the operations, diagnose and error logs of a month have different names |
| LogNames.LogFileNameIsComponent | CloudVault/Application/AppRepository.swift:236-282 | a log file name contains no slash, so it is a single path component |
| LogNames.LogNamesAreComponents | CloudVault/Application/AppSystem+Values.swift:18-49 | the operations, diagnose and error log names of any month are each a single path component |
| LogNames.LogFileNameSuffix | CloudVault/Application/AppSystem+Values.swift:24 | whatever the year and month, a log name ends with `_`, its prefix and `.log` |
| LogNames.SysLogFileName | CloudVault/Application/AppSystem+Values.swift:18-27 | the operations log of a month is a single path component ending in `_operations.log` |
| LogNames.SysDiagnoseFileName | CloudVault/Application/AppSystem+Values.swift:29-38 | the diagnose log of a month is a single path component ending in `_diagnose.log` |
| LogNames.SysErrorFileName | CloudVault/Application/AppSystem+Values.swift:40-49 | the error log of a month is a single path component ending in `_errors.log` |
| AssetPackages.Make | CloudVault/Model/AssetPackage.swift:30-37 | the status is `new` exactly without a URL and `loaded` exactly with one; the id is the metadata's |
| AssetPackages.NewPackage | CloudVault/Model/AssetPackage.swift:43-48 | a new package has no URL and status `new`; without metadata it gets unencrypted metadata named after the asset, with the drawn ULID as id |
| AssetPackages.FromUnencrypted | CloudVault/Model/AssetPackage.swift:50-55 | keeps the URL and the asset; without metadata, the metadata is unencrypted, named after the asset, with the drawn ULID |
| AssetPackages.FromEncrypted | CloudVault/Model/AssetPackage.swift:57-62 | keeps the URL and the asset; without metadata, the metadata is encrypted, named after the asset, with the drawn ULID |
| AssetPackages.Using | CloudVault/Model/AssetPackage.swift:64-66 | a package read from a URL is `loaded`, with that URL, asset and metadata |
| AssetPackages.Same | CloudVault/Model/AssetPackage.swift:72-74 | two packages are equal exactly when they give the hasher the same key, their ids |
| AssetPackages.HashKey | CloudVault/Model/AssetPackage.swift:76-78 | the hasher is fed the metadata id and nothing of the asset, URL or status |
| AssetPackages.SameIgnoresContents | CloudVault/Model/AssetPackage.swift:70-80 | packages with the same metadata id are equal whatever their asset, URL and status, and they hash alike |
| AssetPackages.FreshPackagesSameIffSameUlid | CloudVault/Model/AssetPackage.swift:50-74 | two packages built without metadata are equal exactly when they drew the same ULID |
| PackageWrappers.EncodeAsset | CloudVault/Model/AssetPackage+FileWrapper.swift:79-90 | the asset is encoded with the encoder for its kind; a package whose metadata and asset disagree on encryption gives nothing |
| PackageWrappers.FileWrapperOf | CloudVault/Model/AssetPackage+FileWrapper.swift:60-77 | a wrapper exists exactly when metadata and asset both encode; it is a directory holding exactly `metadata.data` and `asset.data` with those encodings |
| PackageWrappers.BuildFileWrapper | CloudVault/Model/AssetPackage+FileWrapper.swift:60-77 | adding the two entries one by one builds `FileWrapperOf` |
| PackageWrappers.Entry | CloudVault/Model/AssetPackage+FileWrapper.swift:18-24 | an entry's contents exist exactly for a regular-file child of a directory wrapper |
| PackageWrappers.FromDisk | CloudVault/Model/AssetPackage+FileWrapper.swift:16-39 | a missing or non-regular metadata or asset entry, or undecodable metadata, gives no package; a package read back is `loaded`, located at the given URL, and carries the decoded metadata |
| PackageWrappers.FromUrl | CloudVault/Model/AssetPackage+FileWrapper.swift:41-58 | a URL that is not a file URL, or that holds no wrapper, gives no package; a package read back is `loaded` at that URL |
| PackageWrappers.DecodedAsFromAsset | CloudVault/Model/AssetPackage+FileWrapper.swift:29-35 | the package built from a decoded asset is the one `from(asset:url:metadata:)` builds |
| PackageWrappers.FromDiskNeedsBothEntries | CloudVault/Model/AssetPackage+FileWrapper.swift:16-26 | a missing entry or undecodable metadata gives no package |
| PackageWrappers.DecoderChoice | CloudVault/Model/AssetPackage+FileWrapper.swift:27-38 | encrypted metadata tries the encrypted decoder first; otherwise, or when that fails, the unencrypted decoder decides |
| PackageWrappers.WrapperRoundTrip | CloudVault/Model/AssetPackage+FileWrapper.swift:16-90 | with a round-tripping codec, reading back the wrapper of a package gives the same asset and metadata, loaded at the URL |
| PackageWrappers.UrlRoundTrip | CloudVault/Model/AssetPackage+FileWrapper.swift:41-77 | a wrapper saved at a file URL and read back gives a package with the same id |
| AssetTools.Lowercased | CloudVault/Model/AssetTools.swift:16 | lower-casing keeps the length and maps each letter A-Z to a-z |
| AssetTools.LowercasedIdempotent | CloudVault/Model/AssetTools.swift:16 | lower-casing twice is lower-casing once |
| AssetTools.AssetTypeFor | CloudVault/Model/AssetTools.swift:14-24 | after lower-casing, `txt`/`md` are text, `jpg`/`jpeg`/`png` images, `mov`/`mp4` movies, `pdf` a PDF, and exactly every other extension is data |
| AssetTools.AssetTypeIgnoresCase | CloudVault/Model/AssetTools.swift:14-24 | the asset type depends only on the lower-cased extension |
| AssetTools.AssetTypeTable | CloudVault/Model/AssetTools.swift:14-24 | each type in both directions: text for txt/md, image for jpg/jpeg/png, movie for mov/mp4, pdf for pdf, data for anything else |
| AssetTools.EmptyExtensionIsData | CloudVault/Model/AssetTools.swift:21 | a file without an extension is data |
| AssetTools.UpperCaseExtensions | CloudVault/Model/AssetTools.swift:14-24 | upper-case extensions are recognised |
| AssetTools.Encrypt | CloudVault/Model/AssetTools.swift:26-42 | no key gives no cipher text; with a key, the result is the sealing |
| AssetTools.EncryptionKey | CloudVault/Services/AppSystem+Keychain.swift:15 | the app's key provider gives no key for any context |
| AssetTools.Decrypt | CloudVault/Model/AssetTools.swift:44-60 | no key gives no plain text; with a key, the result is the opening |
| AssetTools.NoKeyNoCipher | CloudVault/Model/AssetTools.swift:26-60 | with the key provider that never finds a key, encryption and decryption always give nothing |
| FileRepositories.LocalizedDescription | CloudVault/Services/FileRepository.swift:19-28 | the fixed message for each error, with the folder name inside for `folderDoNotExist` |
| FileRepositories.GetBaseUrl | CloudVault/Services/FileRepository.swift:256-267 | the app group resolves to its group container, which may be missing; every other container resolves to the documents directory |
| FileRepositories.BaseUrlMissing | CloudVault/Services/FileRepository.swift:256-267 | the base URL is missing exactly for the app group without a group container |
| FileRepositories.ParseError | CloudVault/Services/FileRepository.swift:269-272 | every thrown error becomes `undefined` |
| FileRepositories.Effect | CloudVault/Services/FileRepository.swift:83-86 | an effect that does not throw gives success(true); one that throws gives `undefined` |
| FileRepositories.ListFiles | CloudVault/Services/FileRepository.swift:90-126 | a failure is either the unresolved container or `undefined` |
| FileRepositories.CreateFolder | CloudVault/Services/FileRepository.swift:74-88 | without a container root it fails with `unableToLocateContainerRootFolder`; otherwise it gives success(true) exactly when creating the directory throws nothing, and `undefined` when it throws |
| FileRepositories.SaveToUrl | CloudVault/Services/FileRepository.swift:160-168 | writing to an explicit URL fails only with `undefined` |
| FileRepositories.SaveWrapper | CloudVault/Services/FileRepository.swift:128-142 | without a container root it fails with `unableToLocateContainerRootFolder`; otherwise it gives success(true) exactly when writing the wrapper throws nothing, and `undefined` when it throws |
| FileRepositories.SaveFile | CloudVault/Services/FileRepository.swift:144-158 | without a container root it fails with `unableToLocateContainerRootFolder`; otherwise it gives success(true) exactly when writing the data throws nothing, and `undefined` when it throws; the declared type plays no part |
| FileRepositories.RemoveFile | CloudVault/Services/FileRepository.swift:170-184 | without a container root it fails with `unableToLocateContainerRootFolder`; otherwise it gives success(true) exactly when removing the item throws nothing, and `undefined` when it throws |
| FileRepositories.FileExists | CloudVault/Services/FileRepository.swift:215-226 | succeeds exactly when the container resolves, failing otherwise with `unableToLocateContainerRootFolder`; as written it answers true exactly when some entry exists at the URL's absolute string |
| FileRepositories.FolderExists | CloudVault/Services/FileRepository.swift:228-242 | succeeds exactly when the container resolves, failing otherwise with `unableToLocateContainerRootFolder`; as written it answers true exactly when a directory exists at the absolute string of the named folder, or of the root when no name is given |
| FileRepositories.UnresolvedContainerGuard | CloudVault/Services/FileRepository.swift:74-242 | without a base URL, every container operation fails with `unableToLocateContainerRootFolder` |
| FileRepositories.GuardPrecedesDisk | CloudVault/Services/FileRepository.swift:76-175 | without a base URL, the outcome does not depend on the disk |
| FileRepositories.ThrownErrorsAreUndefined | CloudVault/Services/FileRepository.swift:83-183 | with a base URL, every failure of create, list or remove is `undefined` |
| FileRepositories.FolderExistsOfRoot | CloudVault/Services/FileRepository.swift:228-242 | `folderExists(nil)` probes the container root's absolute string and is true only for a directory found under that string |
| FileRepositories.ExistenceChecks | CloudVault/Services/FileRepository.swift:215-242 | as written, both checks probe the URL's absolute string: `fileExists` is true for any entry found under it, `folderExists` only for a directory |
| FileRepositories.AbsoluteStringNeverFound | CloudVault/Services/FileRepository.swift:215-242 | with a `file://` container root and entries only at absolute paths, both checks as written answer false whatever is on the disk |
| FileRepositories.ExistingEntryMissed | CloudVault/Services/FileRepository.swift:215-242 | a directory at the named path is reported when the path is probed and missed by both checks as written |
| FileRepositories.DataFolderMissed | CloudVault/Services/FileRepository.swift:228-242 | with documents at `file:///docs/` and a directory `/docs/Data`, `folderExists(name: "Data")` as written is false and true when the path is probed |
| FileRepositories.FilePath | CloudVault/Services/Repository.swift:98-110 | a file URL is `file://` followed by its path; any other string is its own path |
| FileRepositories.FileExistsAtPath | CloudVault/Services/Repository.swift:98-103 | the corrected `fileExists`: succeeds exactly when the container resolves, and answers true exactly when some entry exists at the URL's path |
| FileRepositories.FolderExistsAtPath | CloudVault/Services/Repository.swift:105-110 | the corrected `folderExists`: succeeds exactly when the container resolves, and answers true exactly when a directory exists at the path of the named folder, or of the root |
| FileRepositories.PathChecks | CloudVault/Services/Repository.swift:98-110 | probing `url.path` as the base class does: `fileExists` is true for any entry at the path, `folderExists` only for a directory, so a found folder is also a found file |
| FileRepositories.ClearFolder | CloudVault/Services/FileRepository.swift:186-213 | a listing failure is passed on with nothing removed; otherwise the listed URLs are removed in order up to the first failure, which is reported, and success(true) when none fails |
| FileRepositories.FileType | CloudVault/Services/FileRepository.swift:244-254 | the file type of a URL is never movie |
| FileRepositories.FileTypeVersusAssetType | CloudVault/Services/FileRepository.swift:244-254 | `fileType` agrees with `AssetTools.assetType` except that movie extensions are data |
| Navigation.AllCasesComplete | CloudVault/Views/MainView.swift:11-13 | `allCases` lists all nine options once each |
| Navigation.AllCases | CloudVault/Views/MainView.swift:11-13 | `allCases` has nine entries, each option at the position of its declaration |
| Navigation.IdIsSystemImage | CloudVault/Views/MainView.swift:15-55 | for every option, `id` equals `systemImage` |
| Navigation.IdInjective | CloudVault/Views/MainView.swift:15-27 | different options have different ids |
| Navigation.Id | CloudVault/Views/MainView.swift:15-27 | an option's id is its system image name |
| Navigation.SystemImage | CloudVault/Views/MainView.swift:43-55 | the image name gives its option back, so no two options show the same image |
| Navigation.AssetViewShared | CloudVault/Views/MainView.swift:57-69 | two options open the same list exactly when they are equal or are links and plus |
| Navigation.AssetView | CloudVault/Views/MainView.swift:57-69 | exactly links and plus open the URL list |
| Navigation.NumberOfButtons | CloudVault/Views/MainView.swift:125 | a row holds at least one button and fewer than all nine options |
| Navigation.ButtonsArray | CloudVault/Views/MainView.swift:125-148 | the rows laid end to end are `allCases` in order; every row but the last has `numberOfButtons` options and the last has 1 to `numberOfButtons`; there are 3 rows in portrait and 2 in landscape |
| CardStack.FirstIndex | CloudVault/Views/CreditCardList.swift:46 | the index found holds the id and no earlier index does; none exactly when the id is absent |
| CardStack.OrderOf | CloudVault/Views/CreditCardList.swift:40-42 | the order of a deal is the position of the first deal with its id |
| CardStack.InsertSorted | CloudVault/Views/CreditCardList.swift:56 | inserting a deal into a list sorted by `order` gives a sorted list |
| CardStack.SortByOrder | CloudVault/Views/CreditCardList.swift:56 | the result is sorted by non-decreasing `order` and is a permutation of the input |
| CardStack.BroughtToFront | CloudVault/Views/CreditCardList.swift:44-58 | an unknown id leaves the deals unchanged; otherwise the result is sorted; the count never changes |
| CardStack.BringToFrontKeepsOthers | CloudVault/Views/CreditCardList.swift:51-56 | the result holds every other deal unchanged plus the tapped deal with `order` set to the count plus one |
| CardStack.BringToFrontKeepsIds | CloudVault/Views/CreditCardList.swift:53-54 | the multiset of ids is preserved |
| CardStack.TappedDealLast | CloudVault/Views/CreditCardList.swift:51-56 | when every other deal's order is at most the count, the tapped deal ends up last |
| CardStack.CreditCardList.BringToFront | CloudVault/Views/CreditCardList.swift:44-58 | the deals become `BroughtToFront` of the old deals |
| ExpandableLists.Toggled | CloudVault/SwiftUI/ExpandableList/ExpandableList.swift:37-41 | the tapped item's membership flips and every other item's is unchanged |
| ExpandableLists.ToggleTwice | CloudVault/SwiftUI/ExpandableList/ExpandableList.swift:36-42 | tapping the same item twice restores the set |
| ExpandableLists.TogglesCommute | CloudVault/SwiftUI/ExpandableList/ExpandableList.swift:36-42 | taps on any two items give the same set in either order |
| ExpandableLists.ExpandableList.constructor | CloudVault/SwiftUI/ExpandableList/ExpandableList.swift:14-15 | initially no cell is expanded |
| ExpandableLists.ExpandableList.HandleCellTap | CloudVault/SwiftUI/ExpandableList/ExpandableList.swift:23-42 | the set becomes `Toggled` of the old set, so the tapped cell is expanded exactly when it was not |

## Left out

- Disk I/O. `FileManager` calls, `FileHandle` seek/write, atomic `Data.write` and `FileWrapper.write` are left out. The base `Repository` is modelled over a map from URL to entry kind. `FileRepository` treats each effect as a function that either succeeds or throws a code.
- Foundation's URL handling. URLs are their absolute strings, and `FileRepositories.FilePath` gives a file URL's `path` by dropping the `file://` scheme. `path` also drops a trailing slash and decodes percent escapes; neither is modelled. `appendingPathComponent` adds a slash only when needed. The disk probing Foundation does to decide whether a URL is a directory is not modelled.
- `Repository.loadFileData`, `moveFile`, `createFile`, `appendToFile` and `removeFile` of the disk-backed base class only perform I/O, so they are left out. The model runs `AppRepository` over `InMemoryRepository`, which overrides all of them except `moveFile`. The app injects the disk-backed `Repository` instead, whose behaviour over the real disk is therefore not modelled. The outcome of `moveFile` is therefore a parameter of `MoveFileToDataFolder` (`moveFile` is not part of this model).
- JSON encoding and decoding: a `Codec` of six functions, with `RoundTrips` as an explicit assumption wherever a lemma needs it.
- ChaCha20-Poly1305 (RFC 8439). Sealing and opening are function parameters. The key provider always gives no key, as in the app.
- Combine publishers, `DispatchQueue` and logging plumbing (`initializeListeners`, `logOperation`, `logException`, `logDiagnose`). The publishers themselves are not modelled. Their effect on the store is: each listener calls `appendLogToFile` on its log (`AppRepositories.AppRepository.AppendLogToFile`), which can create the diagnose log that the start-up itself could not (`DiagnoseAppendCreatesLog`). When and in what order the listeners fire is not modelled.
- `Date`, `Calendar` and `ULID` generation. The year, month, initial log content and drawn ULID are parameters. The ISO date string in the initial log line is part of the content parameter.
- The `AppRepository.shared` singleton and `FileRepository.shared`. They are process-wide instances, and the classes are modelled directly.
- `UnencryptedAsset.from(url:)` and `EncryptedAsset.from(unencrypted:)` are file reads and crypto, so they are left out.
- The share extension, `Authentication`, `AppSettings`, and the SwiftUI view bodies with their floating-point layout (button size, card scale, offset, brightness) are left out. So are `NavigationOption.label`, which is a localisation lookup, and the preview fixtures, including `DummyData.dataArray`.
- `Repository.Description` takes the localisation table as a parameter. The localised strings themselves are not modelled.
- `Urls.PathExtension` has no contract of its own. It is only used through `AssetTools`/`FileRepository`, whose lemmas are stated on the extension string.
- `AssetTools.Lowercased` folds only ASCII letters. Swift's `lowercased()` also folds non-ASCII letters, and no recognised extension contains one.
- `InMemory.InMemoryRepository.ListFolder` promises no order for the listing, because the source iterates a dictionary's keys.
- `CardStack.SortByOrder` is an insertion sort that keeps the tapped deal after others of equal `order`. Swift's `sorted(by:)` does not promise stability, so for ties the proved properties are sortedness and permutation only. `TappedDealLast` holds for any sorted permutation.
- `CardStack.Deal` models the UUID id as a natural number. Ids are only ever compared.
- `AssetMetadata` has an `id` field, as `AssetPackage` uses it, although the metadata declaration in `CloudVault/Model/Asset.swift` has none.
- `Navigation.ListType` lists the list types the main screen opens (url, contact, password, credit card), which the `AssetType` declaration lacks.
- `AssetPackages.Same` is the package's `==`, which compares ids only. Dafny's own `==` on the datatype stays structural.
- `FileRepositories.ListFiles` states only its error kinds. The listed names come from the `contentsOfDirectory` parameter.

## Findings

| source | as written | input that shows it | evidently intended | confidence | as-written member | corrected member |
|---|---|---|---|---|---|---|
| CloudVault/Services/FileRepository.swift:215-242 | `fileExists(name:inContainer:)` and `folderExists(name:inContainer:)` pass `url.absoluteString` (`file:///…`) to `FileManager.fileExists(atPath:)` | documents at `file:///docs/` holding the directory `/docs/Data`: `folderExists(name: "Data")` answers false | probe `url.path`, as the base `Repository` does at CloudVault/Services/Repository.swift:98-110, so that an existing entry is found | not executed; the file system is assumed to know entries only at absolute paths | FileRepositories.ExistingEntryMissed | FileRepositories.PathChecks |

=== FILE: app_repository.dfy ===
/**
 * `AppRepository`: the application's view of its storage, over the in-memory repository.
 * It fixes the folder layout (`Shared` for the inbox under the app-group root, `Data` and
 * `System` under the local root), creates missing folders and monthly log files, saves and
 * moves packages, clears folders, and keeps `inbox` and `assets`, the listings of the
 * inbox and data folders.
 *
 * The pure part (paths and the effect of the start-up sequence on a store) comes first;
 * the class follows, each method proved to act as those functions say.
 */
module AppRepositories {
  import opened Results
  import opened Utf8
  import opened Urls
  import opened Repository
  import opened FileWrappers
  import opened ValidValues
  import opened AssetPackages
  import opened PackageWrappers
  import opened LogNames
  import S = InMemoryStore
  import InMemory

  const INBOX_FOLDER_NAME: string := "Shared"
  const DATA_FOLDER_NAME: string := "Data"
  const SYS_FOLDER_NAME: string := "System"
  const PACKAGE_EXTENSION: string := "pckg"

  function InboxFolder(appGroupRoot: Url): Url {
    Appending(appGroupRoot, INBOX_FOLDER_NAME)
  }

  function DataFolder(localRoot: Url): Url {
    Appending(localRoot, DATA_FOLDER_NAME)
  }

  function SystemFolder(localRoot: Url): Url {
    Appending(localRoot, SYS_FOLDER_NAME)
  }

  /** Where `saveOnSharedFolder` writes a package: `<inbox>/<ULID>.pckg`. */
  function PackagePath(appGroupRoot: Url, ulid: string): Url {
    AppendingExtension(Appending(InboxFolder(appGroupRoot), ulid), PACKAGE_EXTENSION)
  }

  /** Where `moveFileToDataFolder` moves a file: the data folder, under the same last component. */
  function MoveDestination(localRoot: Url, url: Url): Url {
    Appending(DataFolder(localRoot), LastComponent(url))
  }

  /** The URL of a log file: the named file in the system folder. */
  function LogFileUrl(localRoot: Url, filename: string): Url {
    Appending(SystemFolder(localRoot), filename)
  }

  /** The three log files of a month: operations, diagnoses, errors. */
  function LogFiles(localRoot: Url, year: int, month: int): seq<Url> {
    [LogFileUrl(localRoot, SysLogFileName(year, month)),
     LogFileUrl(localRoot, SysDiagnoseFileName(year, month)),
     LogFileUrl(localRoot, SysErrorFileName(year, month))]
  }

  /** A URL built by appending a component names that component, directly inside the directory form of its base. */
  lemma ChildLayout(root: Url, name: string)
    requires IsComponent(name)
    ensures LastComponent(Appending(root, name)) == name
    ensures DeletingLastComponent(Appending(root, name)) == AsDirectory(root)
  {
    LastComponentOfAppending(root, name);
    ParentOfAppending(root, name);
  }

  /** Each folder is the named child of its root, and the three folders differ even when the roots coincide. */
  lemma FolderLayout(root: Url)
    ensures LastComponent(InboxFolder(root)) == INBOX_FOLDER_NAME && DeletingLastComponent(InboxFolder(root)) == AsDirectory(root)
    ensures LastComponent(DataFolder(root)) == DATA_FOLDER_NAME && DeletingLastComponent(DataFolder(root)) == AsDirectory(root)
    ensures LastComponent(SystemFolder(root)) == SYS_FOLDER_NAME && DeletingLastComponent(SystemFolder(root)) == AsDirectory(root)
    ensures InboxFolder(root) != DataFolder(root) && DataFolder(root) != SystemFolder(root) && InboxFolder(root) != SystemFolder(root)
  {
    assert IsComponent(INBOX_FOLDER_NAME);
    assert IsComponent(DATA_FOLDER_NAME);
    assert IsComponent(SYS_FOLDER_NAME);
    ChildLayout(root, INBOX_FOLDER_NAME);
    ChildLayout(root, DATA_FOLDER_NAME);
    ChildLayout(root, SYS_FOLDER_NAME);
    assert INBOX_FOLDER_NAME != DATA_FOLDER_NAME && DATA_FOLDER_NAME != SYS_FOLDER_NAME && INBOX_FOLDER_NAME != SYS_FOLDER_NAME;
  }

  /** Inside any folder, `<ULID>` with the package extension is the single component `<ULID>.pckg`. */
  lemma PackageInFolder(folder: Url, ulid: string)
    ensures AppendingExtension(Appending(folder, ulid), PACKAGE_EXTENSION) == Appending(folder, ulid + ".pckg")
  {
    var d := AsDirectory(folder);
    assert (d + ulid) + "." + PACKAGE_EXTENSION == d + (ulid + "." + PACKAGE_EXTENSION);
    var ext := "." + PACKAGE_EXTENSION;
    assert ext == ".pckg";
    assert ulid + "." + PACKAGE_EXTENSION == ulid + ext;
  }

  /** A package's file name `<ULID>.pckg` is a single path component when the ULID is one. */
  lemma PackageNameIsComponent(ulid: string)
    requires IsComponent(ulid)
    ensures IsComponent(ulid + ".pckg")
  {
    var c := ulid + ".pckg";
    forall i | 0 <= i < |c|
      ensures c[i] != '/'
    {
      if i >= |ulid| {
        assert c[i] == ".pckg"[i - |ulid|];
      }
    }
  }

  /** A package path is the file `<ULID>.pckg` directly inside the inbox folder. */
  lemma PackagePathLayout(appGroupRoot: Url, ulid: string)
    requires IsComponent(ulid)
    ensures PackagePath(appGroupRoot, ulid) == Appending(InboxFolder(appGroupRoot), ulid + ".pckg")
    ensures LastComponent(PackagePath(appGroupRoot, ulid)) == ulid + ".pckg"
    ensures DeletingLastComponent(PackagePath(appGroupRoot, ulid)) == AsDirectory(InboxFolder(appGroupRoot))
  {
    PackageInFolder(InboxFolder(appGroupRoot), ulid);
    PackageNameIsComponent(ulid);
    ChildLayout(InboxFolder(appGroupRoot), ulid + ".pckg");
  }

  /** A moved file keeps its name and lands directly inside the data folder. */
  lemma MoveDestinationLayout(localRoot: Url, url: Url)
    requires LastComponent(url) != ""
    ensures LastComponent(MoveDestination(localRoot, url)) == LastComponent(url)
    ensures DeletingLastComponent(MoveDestination(localRoot, url)) == AsDirectory(DataFolder(localRoot))
  {
    LastComponentOfAppending(DataFolder(localRoot), LastComponent(url));
    ParentOfAppending(DataFolder(localRoot), LastComponent(url));
  }

  // ---------------------------------------------------------------------------
  // Start-up sequence on the in-memory store

  /** `createFolderIfNotExistent`: the folder is created only when the lookup says it is absent. */
  function CreateFolderIfAbsent(s: S.Store, folder: Url): (t: S.Store)
    ensures folder in t.folders
    ensures folder in s.folders ==> t == s
    ensures folder !in s.folders ==> t.folders == s.folders + [folder]
    ensures t.files == s.files && t.wrappers == s.wrappers
  {
    match S.FolderExists(s, folder)
    case Success(present) => if present then s else S.CreateFolder(s, folder).0
    case Failure(_) => s
  }

  /** `createFileIfNotExistent`: the content is written only when the file is absent. */
  function CreateFileIfAbsent(s: S.Store, filename: Url, content: Bytes): (t: S.Store)
    ensures filename in s.files ==> t == s
    ensures filename !in s.files ==> t == S.CreateFile(s, filename, content).0
  {
    match S.FileExists(s, filename)
    case Success(present) => if present then s else S.CreateFile(s, filename, content).0
    case Failure(_) => s
  }

  function FoldersInitialized(s: S.Store, root: Url): S.Store {
    var s1 := CreateFolderIfAbsent(s, InboxFolder(root));
    var s2 := CreateFolderIfAbsent(s1, DataFolder(root));
    CreateFolderIfAbsent(s2, SystemFolder(root))
  }

  /** `initializeFiles`: `createFileIfNotExistent` on each file in turn, with the same content. */
  function FilesCreatedIfAbsent(s: S.Store, filenames: seq<Url>, content: Bytes): S.Store
    decreases |filenames|
  {
    if filenames == [] then s
    else CreateFileIfAbsent(FilesCreatedIfAbsent(s, filenames[..|filenames| - 1], content), filenames[|filenames| - 1], content)
  }

  /** After the folder step, the three folders are registered exactly as built, and nothing else changed. */
  lemma FoldersRegistered(s: S.Store, root: Url)
    ensures var t := FoldersInitialized(s, root);
      && InboxFolder(root) in t.folders && DataFolder(root) in t.folders && SystemFolder(root) in t.folders
      && t.files == s.files && t.wrappers == s.wrappers
      && (forall f :: f in s.folders ==> f in t.folders)
      && (forall f :: f in t.folders ==> f in s.folders || f == InboxFolder(root) || f == DataFolder(root) || f == SystemFolder(root))
  {
    var s1 := CreateFolderIfAbsent(s, InboxFolder(root));
    var s2 := CreateFolderIfAbsent(s1, DataFolder(root));
    var t := CreateFolderIfAbsent(s2, SystemFolder(root));
    assert FoldersInitialized(s, root) == t;
    FolderStep(s, InboxFolder(root));
    FolderStep(s1, DataFolder(root));
    FolderStep(s2, SystemFolder(root));
  }

  /** One folder step registers exactly its folder on top of the ones already there. */
  lemma FolderStep(s: S.Store, folder: Url)
    ensures forall f :: f in CreateFolderIfAbsent(s, folder).folders <==> f in s.folders || f == folder
  {
  }

  /** The file step touches only files: folders and wrappers stay as they were. */
  lemma {:induction false} FilesStepKeepsFolders(s: S.Store, filenames: seq<Url>, content: Bytes)
    ensures FilesCreatedIfAbsent(s, filenames, content).folders == s.folders
    ensures FilesCreatedIfAbsent(s, filenames, content).wrappers == s.wrappers
    decreases |filenames|
  {
    if filenames != [] {
      FilesStepKeepsFolders(s, filenames[..|filenames| - 1], content);
    }
  }

  /** Existing content is never overwritten, and no file is removed. */
  lemma {:induction false} ExistingFilesKept(s: S.Store, filenames: seq<Url>, content: Bytes)
    ensures var t := FilesCreatedIfAbsent(s, filenames, content);
      forall u :: u in s.files ==> u in t.files && t.files[u] == s.files[u]
    decreases |filenames|
  {
    if filenames != [] {
      ExistingFilesKept(s, filenames[..|filenames| - 1], content);
      FilesStepKeepsFolders(s, filenames[..|filenames| - 1], content);
    }
  }

  /** A file whose parent folder is not registered (in directory form) is never created. */
  lemma {:induction false} NoFileWithoutParent(s: S.Store, filenames: seq<Url>, content: Bytes)
    requires forall i :: 0 <= i < |filenames| ==> DeletingLastComponent(filenames[i]) !in s.folders
    ensures FilesCreatedIfAbsent(s, filenames, content).files == s.files
    decreases |filenames|
  {
    if filenames != [] {
      NoFileWithoutParent(s, filenames[..|filenames| - 1], content);
      FilesStepKeepsFolders(s, filenames[..|filenames| - 1], content);
    }
  }

  /** One `createFileIfNotExistent` under a registered parent: the file is present afterwards, and only it may change. */
  lemma CreateStep(s: S.Store, filename: Url, content: Bytes)
    requires DeletingLastComponent(filename) in s.folders
    ensures var t := CreateFileIfAbsent(s, filename, content);
      t.files == if filename in s.files then s.files else s.files[filename := content]
  {
  }

  /** The file step creates no file other than the ones it is given. */
  lemma {:induction false} OnlyGivenFilesCreated(s: S.Store, filenames: seq<Url>, content: Bytes)
    ensures forall u :: u in FilesCreatedIfAbsent(s, filenames, content).files ==> u in s.files || u in filenames
    decreases |filenames|
  {
    if filenames != [] {
      var init := filenames[..|filenames| - 1];
      OnlyGivenFilesCreated(s, init, content);
      forall u | u in FilesCreatedIfAbsent(s, filenames, content).files && u !in s.files
        ensures u in filenames
      {
        if u != filenames[|init|] {
          var j :| 0 <= j < |init| && init[j] == u;
          assert filenames[j] == u;
        }
      }
    }
  }

  /** Under registered parents, every given file ends up present, and one that was absent holds `content`. */
  lemma {:induction false} FilesUnderRegisteredParents(s: S.Store, filenames: seq<Url>, content: Bytes)
    requires forall i :: 0 <= i < |filenames| ==> DeletingLastComponent(filenames[i]) in s.folders
    ensures var t := FilesCreatedIfAbsent(s, filenames, content);
      forall i :: 0 <= i < |filenames| ==>
        filenames[i] in t.files && (filenames[i] !in s.files ==> t.files[filenames[i]] == content)
    decreases |filenames|
  {
    if filenames != [] {
      var init := filenames[..|filenames| - 1];
      var last := filenames[|init|];
      assert filenames == init + [last];
      assert forall i :: 0 <= i < |init| ==> init[i] == filenames[i];
      FilesUnderRegisteredParents(s, init, content);
      FilesStepKeepsFolders(s, init, content);
      OnlyGivenFilesCreated(s, init, content);
      var before := FilesCreatedIfAbsent(s, init, content);
      var after := FilesCreatedIfAbsent(s, filenames, content);
      assert after == CreateFileIfAbsent(before, last, content);
      CreateStep(before, last, content);
      LastFileStep(s.files, before.files, after.files, init, last, content);
    }
  }

  /** The inductive step of `FilesUnderRegisteredParents`, on the file maps alone. */
  lemma LastFileStep(files: map<Url, Bytes>, before: map<Url, Bytes>, after: map<Url, Bytes>, init: seq<Url>, last: Url, content: Bytes)
    requires after == if last in before then before else before[last := content]
    requires forall i :: 0 <= i < |init| ==> init[i] in before && (init[i] !in files ==> before[init[i]] == content)
    requires forall u :: u in before ==> u in files || u in init
    ensures forall i :: 0 <= i < |init + [last]| ==>
      (init + [last])[i] in after && ((init + [last])[i] !in files ==> after[(init + [last])[i]] == content)
  {
    forall i | 0 <= i < |init + [last]|
      ensures (init + [last])[i] in after
      ensures (init + [last])[i] !in files ==> after[(init + [last])[i]] == content
    {
      if i < |init| {
        assert (init + [last])[i] == init[i];
      } else if last in before && last !in files {
        var j :| 0 <= j < |init| && init[j] == last;
      }
    }
  }

  /** Three components appended to one URL all sit directly inside its directory form. */
  lemma ThreeChildren(u: Url, a: string, b: string, c: string)
    requires IsComponent(a) && IsComponent(b) && IsComponent(c)
    ensures var children := [Appending(u, a), Appending(u, b), Appending(u, c)];
      forall i :: 0 <= i < 3 ==> DeletingLastComponent(children[i]) == AsDirectory(u)
  {
    ChildLayout(u, a);
    ChildLayout(u, b);
    ChildLayout(u, c);
  }

  /** Every log file of a month sits directly inside the system folder. */
  lemma LogFilesParent(root: Url, year: int, month: int)
    ensures forall i :: 0 <= i < 3 ==> DeletingLastComponent(LogFiles(root, year, month)[i]) == AsDirectory(SystemFolder(root))
  {
    LogNamesAreComponents(year, month);
    ThreeChildren(SystemFolder(root), SysLogFileName(year, month), SysDiagnoseFileName(year, month), SysErrorFileName(year, month));
  }

  /**
   * `createFolder` registers the system folder without a trailing slash while `createFile`
   * looks a file's parent up in directory form; so unless the store was built with the system
   * folder among its initial folders, start-up creates no log file.
   */
  lemma LogFilesNeedSystemFolderInDirectoryForm(s: S.Store, root: Url, year: int, month: int, initData: Bytes)
    requires AsDirectory(SystemFolder(root)) !in s.folders
    ensures FilesCreatedIfAbsent(FoldersInitialized(s, root), LogFiles(root, year, month), initData).files == s.files
  {
    var t := FoldersInitialized(s, root);
    SystemFolderStaysSlashless(s, root);
    LogFilesParent(root, year, month);
    NoFileWithoutParent(t, LogFiles(root, year, month), initData);
  }

  /** The folder step never registers the directory form of the system folder: it registers folders without a slash. */
  lemma SystemFolderStaysSlashless(s: S.Store, root: Url)
    requires AsDirectory(SystemFolder(root)) !in s.folders
    ensures AsDirectory(SystemFolder(root)) !in FoldersInitialized(s, root).folders
  {
    FoldersRegistered(s, root);
    var sys := SystemFolder(root);
    assert sys[|sys| - 1] == 'm';
    assert InboxFolder(root)[|InboxFolder(root)| - 1] == 'd';
    assert DataFolder(root)[|DataFolder(root)| - 1] == 'a';
  }

  /** With the system folder registered in directory form, each absent log file starts with the initial content. */
  lemma LogFilesCreatedWithSystemFolderInDirectoryForm(s: S.Store, root: Url, year: int, month: int, initData: Bytes)
    requires AsDirectory(SystemFolder(root)) in s.folders
    ensures var t := FilesCreatedIfAbsent(FoldersInitialized(s, root), LogFiles(root, year, month), initData);
      forall i :: 0 <= i < 3 ==>
        var log := LogFiles(root, year, month)[i];
        log in t.files && (log in s.files ==> t.files[log] == s.files[log]) && (log !in s.files ==> t.files[log] == initData)
  {
    FoldersRegistered(s, root);
    LogFilesParent(root, year, month);
    FilesUnderRegisteredParents(FoldersInitialized(s, root), LogFiles(root, year, month), initData);
    ExistingFilesKept(FoldersInitialized(s, root), LogFiles(root, year, month), initData);
  }

  /**
   * The diagnose listener's append (`appendLogToFile`, which runs the file step again and then
   * `appendToFile`) creates the diagnose log even when the start-up could not: `appendToFile`
   * does not look for the file's folder.  After start-up on a store without `System/` and
   * without that log, one diagnose line leaves the log holding exactly that line.
   */
  lemma DiagnoseAppendCreatesLog(s: S.Store, root: Url, year: int, month: int, initData: Bytes, message: Bytes)
    requires AsDirectory(SystemFolder(root)) !in s.folders
    requires LogFileUrl(root, SysDiagnoseFileName(year, month)) !in s.files
    ensures var logs := LogFiles(root, year, month);
      var started := FilesCreatedIfAbsent(FoldersInitialized(s, root), logs, initData);
      var again := FilesCreatedIfAbsent(started, logs, initData);
      S.GetData(S.AppendToFile(again, logs[1], message + [10]).0, logs[1]) == Some(message + [10])
  {
    var logs := LogFiles(root, year, month);
    var t := FoldersInitialized(s, root);
    var started := FilesCreatedIfAbsent(t, logs, initData);
    LogFilesNeedSystemFolderInDirectoryForm(s, root, year, month, initData);
    SystemFolderStaysSlashless(s, root);
    FilesStepKeepsFolders(t, logs, initData);
    LogFilesParent(root, year, month);
    NoFileWithoutParent(started, logs, initData);
    var again := FilesCreatedIfAbsent(started, logs, initData);
    assert logs[1] !in again.files;
    S.AppendToAbsentFile(again, logs[1], message + [10]);
  }

  // ---------------------------------------------------------------------------
  // Listings as `reload` keeps them

  /** What `reload` leaves in a list for a folder: empty when listing fails, otherwise exactly the listed files. */
  ghost predicate Reloaded(s: S.Store, folder: Url, listing: seq<FileDescriptor>) {
    if folder in s.folders then listing == [] else S.Lists(listing, S.Listed(s, folder))
  }

  /** What clearing a folder leaves: the listed files removed, or everything as it was when listing fails. */
  ghost function Cleared(s: S.Store, folder: Url): S.Store {
    if folder in s.folders then s else s.(files := s.files - S.Listed(s, folder))
  }

  /** Saving a package writes a wrapper, which no listing reports: the inbox never shows saved packages. */
  lemma SavedPackageNotListed(s: S.Store, path: Url, w: FileWrapper, folder: Url)
    ensures S.Listed(S.SaveFileWrapper(s, path, w).0, folder) == S.Listed(s, folder)
    ensures S.FileExists(S.SaveFileWrapper(s, path, w).0, path) == S.FileExists(s, path)
  {
  }

  /** `as? RepositoryFile` on a listing of repository files: it always succeeds. */
  function AsRepositoryFile(f: FileDescriptor): Option<FileDescriptor> {
    Some(f)
  }

  function UrlsOf(files: seq<FileDescriptor>): set<Url> {
    set i | 0 <= i < |files| :: files[i].url
  }

  class AppRepository {
    const repository: InMemory.InMemoryRepository
    var inbox: seq<FileDescriptor>
    var assets: seq<FileDescriptor>

    /** `init(repository:)`: folders, then log files, then the listings. */
    constructor (repository: InMemory.InMemoryRepository, year: int, month: int, initData: Bytes)
      modifies repository
      ensures this.repository == repository
      ensures repository.State() ==
        FilesCreatedIfAbsent(FoldersInitialized(old(repository.State()), repository.documents), LogFiles(repository.documents, year, month), initData)
      ensures inbox == [] && assets == []
    {
      this.repository := repository;
      inbox := [];
      assets := [];
      new;
      InitializeFolders();
      InitializeFiles(year, month, initData);
      FoldersRegistered(old(repository.State()), repository.documents);
      FilesStepKeepsFolders(FoldersInitialized(old(repository.State()), repository.documents), LogFiles(repository.documents, year, month), initData);
      Reload();
    }

    function Root(): (root: Url)
      reads repository
      ensures root == repository.documents
    {
      repository.Root(Local)
    }

    method GetFileListFromSharedFolder() returns (r: Result<seq<FileDescriptor>, FileRepositoryError>)
      ensures r.Failure? <==> InboxFolder(Root()) in repository.folders
      ensures r.Success? ==> S.Lists(r.value, S.Listed(repository.State(), InboxFolder(Root())))
    {
      r := repository.ListFolder(InboxFolder(repository.Root(AppGroup)));
    }

    method GetFileListFromDataFolder() returns (r: Result<seq<FileDescriptor>, FileRepositoryError>)
      ensures r.Failure? <==> DataFolder(Root()) in repository.folders
      ensures r.Success? ==> S.Lists(r.value, S.Listed(repository.State(), DataFolder(Root())))
    {
      r := repository.ListFolder(DataFolder(repository.Root(Local)));
    }

    method GetFileListFromSystemFolder() returns (r: Result<seq<FileDescriptor>, FileRepositoryError>)
      ensures r.Failure? <==> SystemFolder(Root()) in repository.folders
      ensures r.Success? ==> S.Lists(r.value, S.Listed(repository.State(), SystemFolder(Root())))
    {
      r := repository.ListFolder(SystemFolder(repository.Root(Local)));
    }

    /** `getValidValues()` of a listing of repository files. */
    static method ValidFiles(r: Result<seq<FileDescriptor>, FileRepositoryError>) returns (files: seq<FileDescriptor>)
      ensures r.Failure? ==> files == []
      ensures r.Success? ==> files == r.value
    {
      files := GetValidValues(r, AsRepositoryFile);
      if r.Success? {
        CompactMapAllCast(r.value, AsRepositoryFile);
      }
    }

    /** Removes every file a listing of `folder` reports, ignoring each removal's result. */
    method ClearListed(folder: Url) returns (ok: bool)
      modifies repository
      ensures ok
      ensures repository.State() == Cleared(old(repository.State()), folder)
    {
      var listing := repository.ListFolder(folder);
      var files := ValidFiles(listing);
      var i := 0;
      while i < |files|
        invariant 0 <= i <= |files|
        invariant repository.folders == old(repository.folders) && repository.wrappers == old(repository.wrappers)
        invariant repository.files == old(repository.files) - UrlsOf(files[..i])
      {
        assert UrlsOf(files[..i + 1]) == UrlsOf(files[..i]) + {files[i].url} by {
          assert files[..i + 1] == files[..i] + [files[i]];
        }
        var _ := repository.RemoveFile(files[i].url);
        i := i + 1;
      }
      assert files[..|files|] == files;
      if listing.Success? {
        assert UrlsOf(files) == S.Listed(old(repository.State()), folder) by {
          forall u | u in S.Listed(old(repository.State()), folder)
            ensures u in UrlsOf(files)
          {
            var k :| 0 <= k < |files| && files[k].url == u;
          }
        }
      }
      return true;
    }

    method ClearInboxFolder() returns (ok: bool)
      modifies repository
      ensures ok
      ensures repository.State() == Cleared(old(repository.State()), InboxFolder(Root()))
    {
      ok := ClearListed(InboxFolder(repository.Root(AppGroup)));
    }

    method ClearDataFolder() returns (ok: bool)
      modifies repository
      ensures ok
      ensures repository.State() == Cleared(old(repository.State()), DataFolder(Root()))
    {
      ok := ClearListed(DataFolder(repository.Root(Local)));
    }

    method ClearSystemFolder() returns (ok: bool)
      modifies repository
      ensures ok
      ensures repository.State() == Cleared(old(repository.State()), SystemFolder(Root()))
    {
      ok := ClearListed(SystemFolder(repository.Root(Local)));
    }

    /** `saveOnSharedFolder(package:)`, with the ULID the source draws passed in. */
    method SaveOnSharedFolder(package: AssetPackage, ulid: string, codec: Codec) returns (ok: bool)
      modifies repository
      ensures ok <==> FileWrapperOf(package, codec).Some?
      ensures FileWrapperOf(package, codec).None? ==> repository.State() == old(repository.State())
      ensures FileWrapperOf(package, codec).Some? ==>
        repository.State() == S.SaveFileWrapper(old(repository.State()), PackagePath(Root(), ulid), FileWrapperOf(package, codec).value).0
    {
      var filepath := PackagePath(repository.Root(AppGroup), ulid);
      var wrapper := BuildFileWrapper(package, codec);
      if wrapper.None? {
        return false;
      }
      var saveFileResult := repository.SaveFileWrapper(filepath, wrapper.value);
      match saveFileResult
      case Success(result) => ok := result;
      case Failure(_) => ok := false;
    }

    /**
     * `moveFileToDataFolder(url:)`.  The in-memory repository inherits `moveFile` from the
     * disk-backed base class, so the move is a parameter giving its outcome.
     */
    method MoveFileToDataFolder(url: Url, move: (Url, Url) -> Result<bool, FileRepositoryError>) returns (ok: bool)
      modifies this
      ensures ok <==> move(url, MoveDestination(Root(), url)) == Success(true)
      ensures move(url, MoveDestination(Root(), url)).Success? ==>
        Reloaded(repository.State(), InboxFolder(Root()), inbox) && Reloaded(repository.State(), DataFolder(Root()), assets)
      ensures move(url, MoveDestination(Root(), url)).Failure? ==> inbox == old(inbox) && assets == old(assets)
    {
      var destination := MoveDestination(repository.Root(Local), url);
      var fileMove := move(url, destination);
      match fileMove
      case Success(result) =>
        Reload();
        ok := result;
      case Failure(_) =>
        ok := false;
    }

    method MovePackageToDataFolder(package: AssetPackage, move: (Url, Url) -> Result<bool, FileRepositoryError>) returns (ok: bool)
      modifies this
      ensures package.url.None? ==> !ok && inbox == old(inbox) && assets == old(assets)
      ensures package.url.Some? ==> (ok <==> move(package.url.value, MoveDestination(Root(), package.url.value)) == Success(true))
    {
      if package.url.None? {
        return false;
      }
      ok := MoveFileToDataFolder(package.url.value, move);
    }

    /** `removeFile(url:)`: the repository's answer, with a reload after a success. */
    method RemoveFile(url: Url) returns (ok: bool)
      modifies this, repository
      ensures (repository.State(), if ok then Success(true) else Failure(FileDoNotExist(url)))
        == S.RemoveFile(old(repository.State()), url)
      ensures ok <==> url in old(repository.files)
      ensures ok ==> Reloaded(repository.State(), InboxFolder(Root()), inbox) && Reloaded(repository.State(), DataFolder(Root()), assets)
      ensures !ok ==> inbox == old(inbox) && assets == old(assets)
    {
      var fileRemoval := repository.RemoveFile(url);
      match fileRemoval
      case Success(result) =>
        Reload();
        ok := result;
      case Failure(_) =>
        ok := false;
    }

    method RemovePackage(package: AssetPackage) returns (ok: bool)
      modifies this, repository
      ensures package.url.None? ==> !ok && repository.State() == old(repository.State())
      ensures package.url.Some? ==> repository.State() == S.RemoveFile(old(repository.State()), package.url.value).0
      ensures package.url.Some? ==> (ok <==> package.url.value in old(repository.files))
    {
      if package.url.None? {
        return false;
      }
      ok := RemoveFile(package.url.value);
    }

    /**
     * `appendLogToFile(message:in:)`: the log files are set up again, then the line is appended.
     * The message is a string encoded as UTF-8, so its bytes are valid UTF-8.
     */
    method AppendLogToFile(message: Bytes, filename: Url, year: int, month: int, initData: Bytes)
      requires Utf8.Valid(message)
      modifies repository
      ensures repository.State() ==
        S.AppendToFile(FilesCreatedIfAbsent(old(repository.State()), LogFiles(repository.documents, year, month), initData), filename, message + [10]).0
    {
      InitializeFiles(year, month, initData);
      var _ := repository.AppendToFile(filename, message + [10]);
    }

    method InitializeFolders()
      modifies repository
      ensures repository.State() == FoldersInitialized(old(repository.State()), repository.documents)
    {
      CreateFolderIfNotExistent(InboxFolder(repository.Root(AppGroup)));
      CreateFolderIfNotExistent(DataFolder(repository.Root(Local)));
      CreateFolderIfNotExistent(SystemFolder(repository.Root(Local)));
    }

    method CreateFolderIfNotExistent(folder: Url)
      modifies repository
      ensures repository.State() == CreateFolderIfAbsent(old(repository.State()), folder)
    {
      var folderExists := repository.FolderExists(folder);
      match folderExists
      case Success(present) =>
        if !present {
          var _ := repository.CreateFolder(folder);
        }
      case Failure(_) =>
    }

    method InitializeFiles(year: int, month: int, initData: Bytes)
      modifies repository
      ensures repository.State() == FilesCreatedIfAbsent(old(repository.State()), LogFiles(repository.documents, year, month), initData)
    {
      CreateFilesIfNotExistent(LogFiles(repository.Root(Local), year, month), initData);
    }

    /** The `forEach` of `initializeFiles`: `createFileIfNotExistent` on each file in turn. */
    method CreateFilesIfNotExistent(filenames: seq<Url>, content: Bytes)
      modifies repository
      ensures repository.State() == FilesCreatedIfAbsent(old(repository.State()), filenames, content)
    {
      for i := 0 to |filenames|
        invariant repository.State() == FilesCreatedIfAbsent(old(repository.State()), filenames[..i], content)
      {
        assert filenames[..i + 1][..i] == filenames[..i];
        CreateFileIfNotExistent(filenames[i], content);
      }
      assert filenames[..|filenames|] == filenames;
    }

    method CreateFileIfNotExistent(filename: Url, content: Bytes)
      modifies repository
      ensures repository.State() == CreateFileIfAbsent(old(repository.State()), filename, content)
    {
      var fileExists := repository.FileExists(filename);
      match fileExists
      case Success(present) =>
        if !present {
          var _ := repository.CreateFile(filename, content);
        }
      case Failure(_) =>
    }

    /** `reload()`: `inbox` and `assets` become the valid values of the inbox and data listings. */
    method Reload()
      modifies this
      ensures Reloaded(repository.State(), InboxFolder(Root()), inbox)
      ensures Reloaded(repository.State(), DataFolder(Root()), assets)
    {
      var shared := GetFileListFromSharedFolder();
      inbox := ValidFiles(shared);
      var data := GetFileListFromDataFolder();
      assets := ValidFiles(data);
    }
  }
}

=== FILE: asset_package.dfy ===
/**
 * `AssetPackage`: an asset together with its metadata and the URL it was read from.
 * Its fields are set once by the private initialiser and never changed afterwards,
 * so the package is a value here.  The ULID and the date a constructor draws when no
 * metadata is supplied are passed in as `drawn`.
 */
module AssetPackages {
  import opened Results
  import opened Urls
  import opened Assets

  datatype Failure = UnableToEncodeMetadata | UnableToEncodeAsset | UnableToDecodeMetadata | UnableToDecodeAsset

  datatype Status = New | Loading | Loaded | Failed(failure: Failure)

  datatype AssetPackage = AssetPackage(status: Status, metadata: AssetMetadata, asset: Asset, url: Option<Url>) {
    /** `id`: the metadata id. */
    function Id(): string {
      metadata.id
    }
  }

  /** The id and date a constructor generates when it has to build metadata itself. */
  datatype Fresh = Fresh(ulid: string, now: int)

  /**
   * The private initialiser: the requested status is ignored and replaced by one
   * derived from the URL.
   */
  function Make(asset: Asset, url: Option<Url>, metadata: AssetMetadata, requested: Status): (p: AssetPackage)
    ensures p.status == New <==> url.None?
    ensures p.status == Loaded <==> url.Some?
    ensures p.asset == asset && p.url == url && p.metadata == metadata
    ensures p.Id() == metadata.id
  {
    AssetPackage(if url.None? then New else Loaded, metadata, asset, url)
  }

  /** Metadata built for an asset that arrives without any. */
  function FreshMetadata(filename: string, encrypted: bool, drawn: Fresh): AssetMetadata {
    AssetMetadata(drawn.ulid, drawn.now, filename, encrypted, true)
  }

  /** `new(asset:metadata:)`: a package not yet stored anywhere. */
  function NewPackage(asset: UnencryptedAsset, existent: Option<AssetMetadata>, drawn: Fresh): (p: AssetPackage)
    ensures p.url.None? && p.status == New
    ensures p.asset == Unencrypted(asset)
    ensures existent.Some? ==> p.metadata == existent.value
    ensures existent.None? ==> !p.metadata.encrypted && p.metadata.filename == asset.name && p.Id() == drawn.ulid
  {
    var metadata := if existent.Some? then existent.value else FreshMetadata(asset.name, false, drawn);
    Make(Unencrypted(asset), None, metadata, New)
  }

  /** `from(asset: UnencryptedAsset, url:metadata:)`. */
  function FromUnencrypted(asset: UnencryptedAsset, url: Option<Url>, existent: Option<AssetMetadata>, drawn: Fresh): (p: AssetPackage)
    ensures p.url == url && p.asset == Unencrypted(asset)
    ensures p.status == (if url.None? then New else Loaded)
    ensures existent.Some? ==> p.metadata == existent.value
    ensures existent.None? ==> !p.metadata.encrypted && p.metadata.filename == asset.name && p.Id() == drawn.ulid
  {
    var metadata := if existent.Some? then existent.value else FreshMetadata(asset.name, false, drawn);
    Make(Unencrypted(asset), url, metadata, Loaded)
  }

  /** `from(asset: EncryptedAsset, url:metadata:)`. */
  function FromEncrypted(asset: EncryptedAsset, url: Option<Url>, existent: Option<AssetMetadata>, drawn: Fresh): (p: AssetPackage)
    ensures p.url == url && p.asset == Encrypted(asset)
    ensures p.status == (if url.None? then New else Loaded)
    ensures existent.Some? ==> p.metadata == existent.value
    ensures existent.None? ==> p.metadata.encrypted && p.metadata.filename == asset.name && p.Id() == drawn.ulid
  {
    var metadata := if existent.Some? then existent.value else FreshMetadata(asset.name, true, drawn);
    Make(Encrypted(asset), url, metadata, Loaded)
  }

  /** `using(asset:url:metadata:)`: always a stored package. */
  function Using(asset: Asset, url: Url, metadata: AssetMetadata): (p: AssetPackage)
    ensures p.status == Loaded && p.url == Some(url)
    ensures p.asset == asset && p.metadata == metadata
  {
    Make(asset, Some(url), metadata, Loaded)
  }

  /** The package's `==`: packages are the same when their ids are, and then they hash alike. */
  predicate Same(p: AssetPackage, q: AssetPackage): (b: bool)
    ensures b <==> HashKey(p) == HashKey(q)
  {
    p.Id() == q.Id()
  }

  /** What `hash(into:)` feeds the hasher: the metadata id, and nothing of the asset, URL or status. */
  function HashKey(p: AssetPackage): (k: string)
    ensures k == p.metadata.id
  {
    p.Id()
  }

  /**
   * Equality looks at nothing but the id: the asset, URL, status and other metadata may all
   * differ, and the two packages still hash alike, as `Hashable` requires of equal values.
   */
  lemma SameIgnoresContents(asset1: Asset, asset2: Asset, url1: Option<Url>, url2: Option<Url>,
                            m1: AssetMetadata, m2: AssetMetadata)
    requires m1.id == m2.id
    ensures Same(Make(asset1, url1, m1, New), Make(asset2, url2, m2, Loaded))
    ensures HashKey(Make(asset1, url1, m1, New)) == HashKey(Make(asset2, url2, m2, Loaded))
  {
  }

  /** Two packages built without metadata are the same exactly when they drew the same ULID. */
  lemma FreshPackagesSameIffSameUlid(a: UnencryptedAsset, b: EncryptedAsset, url: Option<Url>, f1: Fresh, f2: Fresh)
    ensures Same(FromUnencrypted(a, url, None, f1), FromEncrypted(b, url, None, f2)) <==> f1.ulid == f2.ulid
  {
  }
}

=== FILE: asset_tools.dfy ===
/**
 * `AssetTools`: classifying a file by its extension, and the guard that makes
 * encryption and decryption give nothing when no key is available.  The cipher
 * (ChaCha20-Poly1305 of RFC 8439) is a parameter; only the key guard is modelled.
 */
module AssetTools {
  import opened Results
  import opened Utf8
  import opened Assets

  /** Lower-casing of the ASCII letters; every other character is kept. */
  function LowerChar(c: char): (l: char)
    ensures 'A' <= c <= 'Z' ==> l as int == c as int + 32
    ensures !('A' <= c <= 'Z') ==> l == c
  {
    if 'A' <= c <= 'Z' then (c as int + 32) as char else c
  }

  function Lowercased(s: string): (l: string)
    ensures |l| == |s|
    ensures forall i :: 0 <= i < |s| ==> l[i] == LowerChar(s[i])
  {
    seq(|s|, i requires 0 <= i < |s| => LowerChar(s[i]))
  }

  /**
   * `assetType(pathExtension:)`: exactly these lower-cased extensions have a type other
   * than data.
   */
  function AssetTypeFor(pathExtension: string): (t: AssetType)
    ensures var ext := Lowercased(pathExtension);
      && (t == Text <==> ext in {"txt", "md"})
      && (t == Image <==> ext in {"jpg", "jpeg", "png"})
      && (t == Movie <==> ext in {"mov", "mp4"})
      && (t == Pdf <==> ext == "pdf")
      && (t == Data <==> ext !in {"txt", "md", "jpg", "jpeg", "png", "mov", "mp4", "pdf"})
  {
    var ext := Lowercased(pathExtension);
    if ext == "txt" || ext == "md" then Text
    else if ext == "jpg" || ext == "jpeg" || ext == "png" then Image
    else if ext == "mov" || ext == "mp4" then Movie
    else if ext == "pdf" then Pdf
    else Data
  }

  lemma LowercasedIdempotent(s: string)
    ensures Lowercased(Lowercased(s)) == Lowercased(s)
  {
  }

  /** The classification ignores letter case. */
  lemma AssetTypeIgnoresCase(pathExtension: string)
    ensures AssetTypeFor(pathExtension) == AssetTypeFor(Lowercased(pathExtension))
  {
    LowercasedIdempotent(pathExtension);
  }

  /** The extension table: exactly these lower-cased extensions have a type other than data. */
  lemma AssetTypeTable(pathExtension: string)
    ensures var ext := Lowercased(pathExtension);
      && (AssetTypeFor(pathExtension) == Text <==> ext in {"txt", "md"})
      && (AssetTypeFor(pathExtension) == Image <==> ext in {"jpg", "jpeg", "png"})
      && (AssetTypeFor(pathExtension) == Movie <==> ext in {"mov", "mp4"})
      && (AssetTypeFor(pathExtension) == Pdf <==> ext == "pdf")
      && (AssetTypeFor(pathExtension) == Data <==> ext !in {"txt", "md", "jpg", "jpeg", "png", "mov", "mp4", "pdf"})
  {
  }

  /** A file without extension is plain data, whatever its case. */
  lemma EmptyExtensionIsData()
    ensures AssetTypeFor("") == Data
  {
  }

  /** Upper-case extensions classify like lower-case ones. */
  lemma UpperCaseExtensions()
    ensures AssetTypeFor("JPG") == Image && AssetTypeFor("Md") == Text && AssetTypeFor("MP4") == Movie
  {
    assert Lowercased("JPG") == "jpg";
    assert Lowercased("Md") == "md";
    assert Lowercased("MP4") == "mp4";
  }

  datatype SymmetricKey = SymmetricKey(material: Bytes)

  /** The app's key provider (`encriptionKey(for:)`): no key, for whatever context. */
  function EncryptionKey(context: string): (k: Option<SymmetricKey>)
    ensures k.None?
  {
    None
  }

  /**
   * `encrypt(data:)`: without a key there is no ciphertext; with one, the outcome of
   * sealing and re-reading the combined box, given by `seal`.
   */
  function Encrypt(data: Bytes, key: Option<SymmetricKey>, seal: (SymmetricKey, Bytes) -> Option<Bytes>): (r: Option<Bytes>)
    ensures key.None? ==> r.None?
    ensures key.Some? ==> r == seal(key.value, data)
  {
    match key
    case None => None
    case Some(k) => seal(k, data)
  }

  /** `decrypt(data:)`: without a key there is no plaintext; with one, the outcome of opening the box. */
  function Decrypt(data: Bytes, key: Option<SymmetricKey>, open: (SymmetricKey, Bytes) -> Option<Bytes>): (r: Option<Bytes>)
    ensures key.None? ==> r.None?
    ensures key.Some? ==> r == open(key.value, data)
  {
    match key
    case None => None
    case Some(k) => open(k, data)
  }

  /** With the app's key provider, every encryption and decryption gives nothing, whatever the cipher. */
  lemma NoKeyNoCipher(context: string, data: Bytes,
                      seal: (SymmetricKey, Bytes) -> Option<Bytes>, open: (SymmetricKey, Bytes) -> Option<Bytes>)
    ensures Encrypt(data, EncryptionKey(context), seal) == None
    ensures Decrypt(data, EncryptionKey(context), open) == None
  {
  }
}

=== FILE: assets.dfy ===
/**
 * Assets and their metadata.  `Asset` is a protocol in the source with two concrete
 * structs; here it is a datatype with one constructor per concrete kind, so that the
 * `as? EncryptedAsset` / `as? UnencryptedAsset` casts become constructor tests.
 * `AssetMetadata` carries the `id` that `AssetPackage` reads from it; dates are plain integers.
 */
module Assets {
  import opened Utf8

  datatype AssetType = Image | Text | Pdf | Movie | Data

  datatype UnencryptedAsset = UnencryptedAsset(name: string, kind: AssetType, data: Bytes)

  datatype EncryptedAsset = EncryptedAsset(name: string, kind: AssetType, data: Bytes)

  datatype Asset = Unencrypted(plain: UnencryptedAsset) | Encrypted(sealed: EncryptedAsset) {
    function Name(): string {
      match this
      case Unencrypted(a) => a.name
      case Encrypted(a) => a.name
    }
  }

  datatype AssetMetadata = AssetMetadata(
    id: string,
    sharedDate: int,
    filename: string,
    encrypted: bool,
    showThumbnail: bool)
}

=== FILE: credit_card_list.dfy ===
/**
 * The card stack of `CreditCardList`: deals drawn in the order of their `order` field,
 * where tapping a deal moves it to the front by giving it an `order` above every
 * other and sorting the list again.
 */
module CardStack {
  import opened Results

  /** A deal card; its `id` (a UUID in the app) is only ever compared. */
  datatype Deal = Deal(order: int, id: nat, title: string, imageName: string, formattedPrice: string)

  /** The ids of the deals, position by position. */
  function Ids(deals: seq<Deal>): (ids: seq<nat>)
    ensures |ids| == |deals|
    ensures forall i :: 0 <= i < |deals| ==> ids[i] == deals[i].id
  {
    seq(|deals|, i requires 0 <= i < |deals| => deals[i].id)
  }

  /** `firstIndex(where: { $0.id == id })`. */
  function FirstIndex(deals: seq<Deal>, id: nat): (r: Option<nat>)
    ensures r.Some? ==> r.value < |deals| && deals[r.value].id == id
    ensures r.Some? ==> forall j :: 0 <= j < r.value ==> deals[j].id != id
    ensures r.None? <==> id !in Ids(deals)
  {
    if |deals| == 0 then None
    else if deals[0].id == id then Some(0)
    else match FirstIndex(deals[1..], id)
      case None => None
      case Some(i) => Some(i + 1)
  }

  /** `order(for:)`: the position of the first deal with the same id; the force unwrap needs one. */
  function OrderOf(deals: seq<Deal>, deal: Deal): (position: nat)
    requires deal.id in Ids(deals)
    ensures position < |deals| && deals[position].id == deal.id
    ensures forall j :: 0 <= j < position ==> deals[j].id != deal.id
  {
    FirstIndex(deals, deal.id).value
  }

  predicate Sorted(deals: seq<Deal>) {
    forall i, j :: 0 <= i < j < |deals| ==> deals[i].order <= deals[j].order
  }

  /** Inserting a deal before the first deal of greater `order`. */
  function Insert(deal: Deal, deals: seq<Deal>): (r: seq<Deal>)
    ensures multiset(r) == multiset(deals) + multiset{deal}
    ensures |r| > 0 && (r[0] == deal || (|deals| > 0 && r[0] == deals[0]))
  {
    if |deals| == 0 then [deal]
    else if deal.order < deals[0].order then [deal] + deals
    else
      assert deals == [deals[0]] + deals[1..];
      [deals[0]] + Insert(deal, deals[1..])
  }

  /** A deal placed before a sorted list whose head it does not exceed gives a sorted list. */
  lemma PrependSorted(x: Deal, rest: seq<Deal>)
    requires Sorted(rest)
    requires |rest| > 0 ==> x.order <= rest[0].order
    ensures Sorted([x] + rest)
  {
    var r := [x] + rest;
    forall i, j | 0 <= i < j < |r|
      ensures r[i].order <= r[j].order
    {
      assert r[j] == rest[j - 1];
      if i > 0 {
        assert r[i] == rest[i - 1];
      }
    }
  }

  /** Inserting into a sorted list keeps it sorted. */
  lemma {:induction false} InsertSorted(deal: Deal, deals: seq<Deal>)
    requires Sorted(deals)
    ensures Sorted(Insert(deal, deals))
  {
    if |deals| == 0 {
      assert Insert(deal, deals) == [deal];
    } else if deal.order < deals[0].order {
      PrependSorted(deal, deals);
    } else {
      var tail := deals[1..];
      var rest := Insert(deal, tail);
      assert Sorted(tail);
      InsertSorted(deal, tail);
      assert rest[0] == deal || rest[0] == tail[0];
      PrependSorted(deals[0], rest);
      assert Insert(deal, deals) == [deals[0]] + rest;
    }
  }

  /** `sorted(by: { $0.order < $1.order })`, as an insertion sort. */
  function SortByOrder(deals: seq<Deal>): (r: seq<Deal>)
    ensures Sorted(r)
    ensures multiset(r) == multiset(deals)
  {
    if |deals| == 0 then []
    else
      assert deals == deals[..|deals| - 1] + [deals[|deals| - 1]];
      var sorted := SortByOrder(deals[..|deals| - 1]);
      InsertSorted(deals[|deals| - 1], sorted);
      Insert(deals[|deals| - 1], sorted)
  }

  /** The deals without the one at `idx`, with `deal` appended carrying `order` one above the count. */
  function MovedToEnd(deals: seq<Deal>, idx: nat, deal: Deal): (r: seq<Deal>)
    requires idx < |deals|
    ensures |r| == |deals|
    ensures multiset(r) == multiset(deals[..idx] + deals[idx + 1..]) + multiset{deal.(order := |deals| + 1)}
  {
    deals[..idx] + deals[idx + 1..] + [deal.(order := |deals| + 1)]
  }

  /** The list `bringToFront(deal)` leaves behind. */
  function BroughtToFront(deals: seq<Deal>, deal: Deal): (r: seq<Deal>)
    ensures deal.id !in Ids(deals) ==> r == deals
    ensures deal.id in Ids(deals) ==> Sorted(r)
    ensures |r| == |deals|
  {
    match FirstIndex(deals, deal.id)
    case None => deals
    case Some(idx) =>
      var result := SortByOrder(MovedToEnd(deals, idx, deal));
      assert |result| == |multiset(result)| == |deals|;
      result
  }

  /** The tapped deal returns with `order` one above the count; every other deal comes back unchanged. */
  lemma {:induction false} BringToFrontKeepsOthers(deals: seq<Deal>, deal: Deal, idx: nat)
    requires FirstIndex(deals, deal.id) == Some(idx)
    ensures multiset(BroughtToFront(deals, deal))
      == multiset(deals[..idx] + deals[idx + 1..]) + multiset{deal.(order := |deals| + 1)}
  {
    var moved := MovedToEnd(deals, idx, deal);
    assert BroughtToFront(deals, deal) == SortByOrder(moved);
    assert multiset(SortByOrder(moved)) == multiset(moved);
  }

  lemma IdsConcat(a: seq<Deal>, b: seq<Deal>)
    ensures Ids(a + b) == Ids(a) + Ids(b)
  {
  }

  /** Equal multisets of deals have equal multisets of ids. */
  lemma {:induction false} IdsOfPermutation(a: seq<Deal>, b: seq<Deal>)
    requires multiset(a) == multiset(b)
    ensures multiset(Ids(a)) == multiset(Ids(b))
    decreases |a|
  {
    if |a| > 0 {
      var x := a[0];
      assert x in multiset(b);
      var j :| 0 <= j < |b| && b[j] == x;
      var b' := b[..j] + b[j + 1..];
      assert b == b[..j] + [x] + b[j + 1..];
      assert a == [x] + a[1..];
      assert multiset(b) == multiset(b[..j]) + multiset{x} + multiset(b[j + 1..]);
      assert multiset(a) == multiset{x} + multiset(a[1..]);
      assert multiset(b') == multiset(b[..j]) + multiset(b[j + 1..]);
      assert multiset(b') + multiset{x} == multiset(b);
      assert multiset(a[1..]) + multiset{x} == multiset(a);
      assert multiset(b') == (multiset(b') + multiset{x}) - multiset{x};
      assert multiset(a[1..]) == (multiset(a[1..]) + multiset{x}) - multiset{x};
      IdsOfPermutation(a[1..], b');
      IdsConcat([x], a[1..]);
      IdsConcat(b[..j] + [x], b[j + 1..]);
      IdsConcat(b[..j], [x]);
      IdsConcat(b[..j], b[j + 1..]);
    } else {
      assert |multiset(b)| == 0;
    }
  }

  /** Replacing the deal at `idx` by one with the same id keeps the multiset of ids. */
  lemma {:induction false} MovedToEndKeepsIds(deals: seq<Deal>, idx: nat, deal: Deal)
    requires idx < |deals| && deals[idx].id == deal.id
    ensures multiset(Ids(MovedToEnd(deals, idx, deal))) == multiset(Ids(deals))
  {
    var front, back := deals[..idx], deals[idx + 1..];
    var moved := deal.(order := |deals| + 1);
    assert MovedToEnd(deals, idx, deal) == front + back + [moved];
    assert deals == front + [deals[idx]] + back;
    IdsConcat(front + [deals[idx]], back);
    IdsConcat(front, [deals[idx]]);
    IdsConcat(front + back, [moved]);
    IdsConcat(front, back);
    assert Ids([moved]) == Ids([deals[idx]]) == [deal.id];
  }

  /** Bringing a deal to the front keeps the multiset of ids. */
  lemma {:induction false} BringToFrontKeepsIds(deals: seq<Deal>, deal: Deal)
    ensures multiset(Ids(BroughtToFront(deals, deal))) == multiset(Ids(deals))
  {
    match FirstIndex(deals, deal.id)
    case None =>
    case Some(idx) =>
      assert BroughtToFront(deals, deal) == SortByOrder(MovedToEnd(deals, idx, deal));
      IdsOfPermutation(BroughtToFront(deals, deal), MovedToEnd(deals, idx, deal));
      MovedToEndKeepsIds(deals, idx, deal);
  }

  /** In a sorted list whose one deal `top` has an `order` above all the others, `top` is last. */
  lemma {:induction false} GreatestIsLast(r: seq<Deal>, others: seq<Deal>, top: Deal)
    requires Sorted(r) && multiset(r) == multiset(others) + multiset{top}
    requires forall j :: 0 <= j < |others| ==> others[j].order < top.order
    ensures |r| > 0 && r[|r| - 1] == top
  {
    assert top in multiset(r);
    var t :| 0 <= t < |r| && r[t] == top;
    var last := r[|r| - 1];
    assert top.order <= last.order;
    forall x | x in multiset(others)
      ensures x.order < top.order
    {
      var j :| 0 <= j < |others| && others[j] == x;
    }
    assert last in multiset(others) + multiset{top};
  }

  /** A found index witnesses that the id is among the deals' ids. */
  lemma FoundInIds(deals: seq<Deal>, id: nat, idx: nat)
    requires FirstIndex(deals, id) == Some(idx)
    ensures id in Ids(deals)
  {
    assert Ids(deals)[idx] == id;
  }

  /** Removing the deal at `idx` leaves only deals whose `order` is below `bound` when all others were. */
  lemma RemovedBelow(deals: seq<Deal>, idx: nat, bound: int)
    requires idx < |deals|
    requires forall j :: 0 <= j < |deals| && j != idx ==> deals[j].order < bound
    ensures var rest := deals[..idx] + deals[idx + 1..];
      forall j :: 0 <= j < |rest| ==> rest[j].order < bound
  {
    var rest := deals[..idx] + deals[idx + 1..];
    forall j | 0 <= j < |rest|
      ensures rest[j].order < bound
    {
      if j < idx {
        assert rest[j] == deals[j];
      } else {
        assert rest[j] == deals[j + 1];
      }
    }
  }

  /**
   * When every other deal has an `order` of at most the number of deals, the tapped deal
   * ends up last in the list, the front of the stack.
   */
  lemma {:induction false} TappedDealLast(deals: seq<Deal>, deal: Deal, idx: nat)
    requires FirstIndex(deals, deal.id) == Some(idx)
    requires forall j :: 0 <= j < |deals| && j != idx ==> deals[j].order <= |deals|
    ensures var r := BroughtToFront(deals, deal);
      |r| == |deals| && r[|r| - 1] == deal.(order := |deals| + 1)
  {
    var r := BroughtToFront(deals, deal);
    var moved := deal.(order := |deals| + 1);
    BringToFrontKeepsOthers(deals, deal, idx);
    FoundInIds(deals, deal.id, idx);
    RemovedBelow(deals, idx, moved.order);
    GreatestIsLast(r, deals[..idx] + deals[idx + 1..], moved);
  }

  /** The card-stack view's state: the deals, kept in drawing order. */
  class CreditCardList {
    var deals: seq<Deal>

    constructor (deals: seq<Deal>)
      ensures this.deals == deals
    {
      this.deals := deals;
    }

    /**
     * `bringToFront(_:)`: an unknown deal changes nothing; otherwise the first deal with its id
     * is removed, the tapped deal is appended with `order` one above the count, and the list is sorted.
     */
    method BringToFront(deal: Deal)
      modifies this
      ensures deals == BroughtToFront(old(deals), deal)
    {
      var found := FirstIndex(deals, deal.id);
      if found.None? {
        return;
      }
      var idx := found.value;
      var mutableDeals := deals;
      var mutableDeal := deal.(order := |deals| + 1);
      mutableDeals := mutableDeals[..idx] + mutableDeals[idx + 1..];
      mutableDeals := mutableDeals + [mutableDeal];
      assert mutableDeals == MovedToEnd(deals, idx, deal);
      deals := SortByOrder(mutableDeals);
    }
  }
}

=== FILE: expandable_list.dfy ===
/**
 * `ExpandableList`: a list of cells where tapping a cell expands or collapses it.
 * The expanded cells are the items in the `selectedCellArray` set.
 */
module ExpandableLists {

  datatype DummyData = DummyData(id: int, title: string, subTitle: string)

  /** The set after a tap on `about`: its membership flips and nothing else changes. */
  function Toggled(selected: set<DummyData>, about: DummyData): (r: set<DummyData>)
    ensures about in r <==> about !in selected
    ensures forall x :: x != about ==> (x in r <==> x in selected)
  {
    if about in selected then selected - {about} else selected + {about}
  }

  /** Tapping the same cell twice restores the set. */
  lemma ToggleTwice(selected: set<DummyData>, about: DummyData)
    ensures Toggled(Toggled(selected, about), about) == selected
  {
  }

  /** Taps on two different cells commute. */
  lemma TogglesCommute(selected: set<DummyData>, a: DummyData, b: DummyData)
    ensures Toggled(Toggled(selected, a), b) == Toggled(Toggled(selected, b), a)
  {
  }

  class ExpandableList {
    var selectedCellArray: set<DummyData>
    const dummyArray: seq<DummyData>

    /** Initially no cell is expanded. */
    constructor (dummyArray: seq<DummyData>)
      ensures this.dummyArray == dummyArray
      ensures forall about :: !IsExpanded(about)
    {
      this.dummyArray := dummyArray;
      selectedCellArray := {};
    }

    /** Whether the cell of `about` is drawn expanded. */
    predicate IsExpanded(about: DummyData)
      reads this
    {
      about in selectedCellArray
    }

    /** `handleCellTap(_:)`: removes the tapped item when present, inserts it otherwise. */
    method HandleCellTap(about: DummyData)
      modifies this
      ensures selectedCellArray == Toggled(old(selectedCellArray), about)
      ensures IsExpanded(about) <==> about !in old(selectedCellArray)
    {
      if about in selectedCellArray {
        selectedCellArray := selectedCellArray - {about};
      } else {
        selectedCellArray := selectedCellArray + {about};
      }
    }
  }
}

=== FILE: file_repository.dfy ===
/**
 * `FileRepository`, the disk-backed repository singleton.  The disk is a parameter: each
 * effect the source performs through `FileManager`, `Data.write` or `FileWrapper.write`
 * is a function giving `None` when it succeeds and `Some(code)` for the error it throws.
 * What is modelled is the logic around those effects: the container guard, the error
 * mapping, the extension classification and the removal loop of `clearFolder`.
 */
module FileRepositories {
  import opened Results
  import opened Utf8
  import opened Urls
  import opened FileWrappers
  import opened ValidValues
  import Repository
  import Assets
  import AssetTools

  datatype FileRepositoryError =
    | UnableToLocateContainerRootFolder
    | UnableToAccessDisk
    | FolderDoNotExist(folderName: string)
    | Undefined

  /** `localizedDescription`. */
  function LocalizedDescription(e: FileRepositoryError): (d: string)
    ensures e == UnableToAccessDisk ==> d == "Unable To Access Storage!"
    ensures e == UnableToLocateContainerRootFolder ==> d == "Container not Configured to be used on this Application!"
    ensures e.FolderDoNotExist? ==> d == "Folder does not Exist -> " + e.folderName + "!"
    ensures e == Undefined ==> d == "Error not identified!"
  {
    match e
    case UnableToAccessDisk => "Unable To Access Storage!"
    case UnableToLocateContainerRootFolder => "Container not Configured to be used on this Application!"
    case FolderDoNotExist(folderName) => "Folder does not Exist -> " + folderName + "!"
    case Undefined => "Error not identified!"
  }

  datatype AcceptedType = Image | Text | Pdf | Movie | Data

  datatype EnabledContainer = Local | AppGroup | ICloud | Remote(baseUrl: Url)

  type Output = Result<bool, FileRepositoryError>

  /**
   * The device as the repository sees it.  `groupContainer` is the container resolved for the
   * configured app-group id, absent when it cannot be resolved; `parseUrl` is `URL(string:)`.
   */
  datatype FileSystem = FileSystem(
    documentsDirectory: Url,
    groupContainer: Option<Url>,
    createDirectory: Url -> Option<int>,
    contentsOfDirectory: Url -> Result<seq<Url>, int>,
    writeWrapper: (Url, FileWrapper) -> Option<int>,
    writeData: (Url, Bytes) -> Option<int>,
    removeItem: Url -> Option<int>,
    entryAt: string -> Option<Repository.EntryKind>,
    parseUrl: string -> Option<Url>)

  /** `getBaseUrl(for:)`. */
  function GetBaseUrl(container: EnabledContainer, fs: FileSystem): (base: Option<Url>)
    ensures container == AppGroup ==> base == fs.groupContainer
    ensures container != AppGroup ==> base == Some(fs.documentsDirectory)
  {
    match container
    case Local => Some(fs.documentsDirectory)
    case AppGroup => fs.groupContainer
    case _ => Some(fs.documentsDirectory)
  }

  /** Only the app-group container can be unresolved, and only when its container is. */
  lemma BaseUrlMissing(container: EnabledContainer, fs: FileSystem)
    ensures GetBaseUrl(container, fs).None? <==> container == AppGroup && fs.groupContainer.None?
  {
  }

  /** `parseError`: the thrown error is logged and forgotten. */
  function ParseError(code: int): (e: FileRepositoryError)
    ensures e == Undefined
  {
    Undefined
  }

  /** The outcome of one disk effect: success, or the thrown error mapped by `parseError`. */
  function Effect(thrown: Option<int>): (r: Output)
    ensures r.Success? <==> thrown.None?
    ensures r.Success? ==> r.value
    ensures r.Failure? ==> r.error == Undefined
  {
    match thrown
    case None => Success(true)
    case Some(code) => Failure(ParseError(code))
  }

  /**
   * `createFolder(folderName:inContainer:)`: without a container root it fails before touching
   * the disk; otherwise it succeeds exactly when creating the directory throws nothing.
   */
  function CreateFolder(folderName: string, container: EnabledContainer, fs: FileSystem): (r: Output)
    ensures GetBaseUrl(container, fs).None? ==> r == Failure(UnableToLocateContainerRootFolder)
    ensures GetBaseUrl(container, fs).Some? ==>
      (r == Success(true) <==> fs.createDirectory(Appending(GetBaseUrl(container, fs).value, folderName)).None?)
    ensures GetBaseUrl(container, fs).Some? && r.Failure? ==> r.error == Undefined
    ensures r.Success? ==> r.value
  {
    match GetBaseUrl(container, fs)
    case None => Failure(UnableToLocateContainerRootFolder)
    case Some(base) => Effect(fs.createDirectory(Appending(base, folderName)))
  }

  /** The directory `listFiles` reads and `folderExists` probes: the named folder, or the root itself. */
  function ListedPath(base: Url, folder: Option<string>): Url {
    if folder.Some? then Appending(base, folder.value) else base
  }

  /** `listFiles(onFolder:using:)`: the absolute strings of the directory's entries. */
  function ListFiles(folder: Option<string>, container: EnabledContainer, fs: FileSystem): (r: Result<seq<string>, FileRepositoryError>)
    ensures r.Failure? ==> r.error == UnableToLocateContainerRootFolder || r.error == Undefined
  {
    match GetBaseUrl(container, fs)
    case None => Failure(UnableToLocateContainerRootFolder)
    case Some(base) =>
      match fs.contentsOfDirectory(ListedPath(base, folder))
      case Success(urls) => Success(urls)
      case Failure(code) => Failure(ParseError(code))
  }

  /** `saveWrapper(withName:fileWrapper:using:)`: succeeds exactly when writing the wrapper throws nothing. */
  function SaveWrapper(filename: string, w: FileWrapper, container: EnabledContainer, fs: FileSystem): (r: Output)
    ensures GetBaseUrl(container, fs).None? ==> r == Failure(UnableToLocateContainerRootFolder)
    ensures GetBaseUrl(container, fs).Some? ==>
      (r == Success(true) <==> fs.writeWrapper(Appending(GetBaseUrl(container, fs).value, filename), w).None?)
    ensures GetBaseUrl(container, fs).Some? && r.Failure? ==> r.error == Undefined
    ensures r.Success? ==> r.value
  {
    match GetBaseUrl(container, fs)
    case None => Failure(UnableToLocateContainerRootFolder)
    case Some(base) => Effect(fs.writeWrapper(Appending(base, filename), w))
  }

  /** `saveFile(withName:data:ofType:using:)`; the declared type is not used. */
  function SaveFile(filename: string, data: Bytes, ofType: AcceptedType, container: EnabledContainer, fs: FileSystem): (r: Output)
    ensures GetBaseUrl(container, fs).None? ==> r == Failure(UnableToLocateContainerRootFolder)
    ensures GetBaseUrl(container, fs).Some? ==>
      (r == Success(true) <==> fs.writeData(Appending(GetBaseUrl(container, fs).value, filename), data).None?)
    ensures GetBaseUrl(container, fs).Some? && r.Failure? ==> r.error == Undefined
    ensures r.Success? ==> r.value
  {
    match GetBaseUrl(container, fs)
    case None => Failure(UnableToLocateContainerRootFolder)
    case Some(base) => Effect(fs.writeData(Appending(base, filename), data))
  }

  /** `saveToUrl(url:data:)`: the one operation addressed by URL, so it has no container guard. */
  function SaveToUrl(url: Url, data: Bytes, fs: FileSystem): (r: Output)
    ensures r.Failure? ==> r.error == Undefined
  {
    Effect(fs.writeData(url, data))
  }

  /** `removeFile(withName:using:)`: succeeds exactly when removing the item throws nothing. */
  function RemoveFile(filename: string, container: EnabledContainer, fs: FileSystem): (r: Output)
    ensures GetBaseUrl(container, fs).None? ==> r == Failure(UnableToLocateContainerRootFolder)
    ensures GetBaseUrl(container, fs).Some? ==>
      (r == Success(true) <==> fs.removeItem(Appending(GetBaseUrl(container, fs).value, filename)).None?)
    ensures GetBaseUrl(container, fs).Some? && r.Failure? ==> r.error == Undefined
    ensures r.Success? ==> r.value
  {
    match GetBaseUrl(container, fs)
    case None => Failure(UnableToLocateContainerRootFolder)
    case Some(base) => Effect(fs.removeItem(Appending(base, filename)))
  }

  /**
   * `fileExists(name:inContainer:)`: anything found, file or directory.  The source hands
   * `url.absoluteString` to `fileExists(atPath:)`, so the string probed is the URL itself,
   * scheme included, not its path.
   */
  function FileExists(filename: string, container: EnabledContainer, fs: FileSystem): (r: Output)
    ensures r.Success? <==> GetBaseUrl(container, fs).Some?
    ensures r.Failure? ==> r.error == UnableToLocateContainerRootFolder
    ensures r == Success(true) <==>
      GetBaseUrl(container, fs).Some? && fs.entryAt(Appending(GetBaseUrl(container, fs).value, filename)).Some?
  {
    match GetBaseUrl(container, fs)
    case None => Failure(UnableToLocateContainerRootFolder)
    case Some(base) => Success(fs.entryAt(Appending(base, filename)).Some?)
  }

  /**
   * `folderExists(name:inContainer:)`: a directory at the named folder, or at the root when no
   * name is given; like `FileExists`, it probes the absolute string.
   */
  function FolderExists(folderName: Option<string>, container: EnabledContainer, fs: FileSystem): (r: Output)
    ensures r.Success? <==> GetBaseUrl(container, fs).Some?
    ensures r.Failure? ==> r.error == UnableToLocateContainerRootFolder
    ensures r == Success(true) <==>
      GetBaseUrl(container, fs).Some? && fs.entryAt(ListedPath(GetBaseUrl(container, fs).value, folderName)) == Some(Repository.Directory)
  {
    match GetBaseUrl(container, fs)
    case None => Failure(UnableToLocateContainerRootFolder)
    case Some(base) => Success(fs.entryAt(ListedPath(base, folderName)) == Some(Repository.Directory))
  }

  /** `url.path` of a file URL: its absolute string without the `file://` scheme. */
  function FilePath(u: Url): (p: string)
    ensures IsFileUrl(u) ==> u == "file://" + p
    ensures !IsFileUrl(u) ==> p == u
  {
    if IsFileUrl(u) then
      assert u == u[..7] + u[7..];
      u[7..]
    else u
  }

  /** The file system knows entries only at absolute paths, which start with a slash. */
  ghost predicate PathsAbsolute(fs: FileSystem) {
    forall p :: fs.entryAt(p).Some? ==> |p| > 0 && p[0] == '/'
  }

  /** `fileExists(name:inContainer:)` probing `url.path`, as the base `Repository` does. */
  function FileExistsAtPath(filename: string, container: EnabledContainer, fs: FileSystem): (r: Output)
    ensures r.Success? <==> GetBaseUrl(container, fs).Some?
    ensures r.Failure? ==> r.error == UnableToLocateContainerRootFolder
    ensures r == Success(true) <==>
      GetBaseUrl(container, fs).Some? && fs.entryAt(FilePath(Appending(GetBaseUrl(container, fs).value, filename))).Some?
  {
    match GetBaseUrl(container, fs)
    case None => Failure(UnableToLocateContainerRootFolder)
    case Some(base) => Success(fs.entryAt(FilePath(Appending(base, filename))).Some?)
  }

  /** `folderExists(name:inContainer:)` probing `url.path`, as the base `Repository` does. */
  function FolderExistsAtPath(folderName: Option<string>, container: EnabledContainer, fs: FileSystem): (r: Output)
    ensures r.Success? <==> GetBaseUrl(container, fs).Some?
    ensures r.Failure? ==> r.error == UnableToLocateContainerRootFolder
    ensures r == Success(true) <==>
      GetBaseUrl(container, fs).Some? && fs.entryAt(FilePath(ListedPath(GetBaseUrl(container, fs).value, folderName))) == Some(Repository.Directory)
  {
    match GetBaseUrl(container, fs)
    case None => Failure(UnableToLocateContainerRootFolder)
    case Some(base) => Success(fs.entryAt(FilePath(ListedPath(base, folderName))) == Some(Repository.Directory))
  }

  /** A URL under a file URL is a file URL too, so it never starts with a slash. */
  lemma UnderFileUrl(base: Url, name: string)
    requires IsFileUrl(base)
    ensures IsFileUrl(Appending(base, name))
  {
    var d := AsDirectory(base);
    assert d[..|base|] == base;
    assert Appending(base, name)[..7] == d[..7] == base[..7];
  }

  /**
   * As written, with a `file://` container root and a file system that knows only absolute
   * paths, `fileExists` and `folderExists` answer false whatever is on the disk.
   */
  lemma AbsoluteStringNeverFound(container: EnabledContainer, fs: FileSystem, name: string, folder: Option<string>)
    requires GetBaseUrl(container, fs).Some? && IsFileUrl(GetBaseUrl(container, fs).value)
    requires PathsAbsolute(fs)
    ensures FileExists(name, container, fs) == Success(false)
    ensures FolderExists(folder, container, fs) == Success(false)
  {
    var base := GetBaseUrl(container, fs).value;
    UnderFileUrl(base, name);
    assert Appending(base, name)[0] == 'f';
    if folder.Some? {
      UnderFileUrl(base, folder.value);
      assert Appending(base, folder.value)[0] == 'f';
    } else {
      assert base[0] == 'f';
    }
  }

  /**
   * A directory that exists at the named path is reported by the path-probing checks and
   * missed by the checks as written.
   */
  lemma ExistingEntryMissed(container: EnabledContainer, fs: FileSystem, name: string)
    requires GetBaseUrl(container, fs).Some? && IsFileUrl(GetBaseUrl(container, fs).value)
    requires PathsAbsolute(fs)
    requires fs.entryAt(FilePath(Appending(GetBaseUrl(container, fs).value, name))) == Some(Repository.Directory)
    ensures FileExistsAtPath(name, container, fs) == Success(true)
    ensures FolderExistsAtPath(Some(name), container, fs) == Success(true)
    ensures FileExists(name, container, fs) == Success(false)
    ensures FolderExists(Some(name), container, fs) == Success(false)
  {
    AbsoluteStringNeverFound(container, fs, name, Some(name));
  }

  /** A device whose documents folder is `file:///docs/` and holds one directory, `/docs/Data`. */
  function DocsWithDataFolder(): FileSystem {
    FileSystem("file:///docs/", None,
      u => None, u => Success([]), (u, w) => None, (u, d) => None, u => None,
      p => if p == "/docs/Data" then Some(Repository.Directory) else None,
      t => None)
  }

  /** On that device, `folderExists(name: "Data")` as written answers false; probing the path answers true. */
  lemma DataFolderMissed()
    ensures FolderExists(Some("Data"), Local, DocsWithDataFolder()) == Success(false)
    ensures FolderExistsAtPath(Some("Data"), Local, DocsWithDataFolder()) == Success(true)
  {
    var base := "file:///docs/";
    var url := Appending(base, "Data");
    assert AsDirectory(base) == base;
    assert url == base + "Data";
    assert base[..7] == "file://";
    UnderFileUrl(base, "Data");
    assert url[7..] == base[7..] + "Data";
    assert base[7..] == "/docs/";
    assert FilePath(url) == "/docs/Data";
    assert url[0] != '/';
  }

  /** Probing the path: `fileExists` is true for any entry there, `folderExists` only for a directory. */
  lemma PathChecks(container: EnabledContainer, fs: FileSystem, name: string)
    requires GetBaseUrl(container, fs).Some?
    ensures var path := FilePath(Appending(GetBaseUrl(container, fs).value, name));
      && FileExistsAtPath(name, container, fs) == Success(fs.entryAt(path).Some?)
      && FolderExistsAtPath(Some(name), container, fs) == Success(fs.entryAt(path) == Some(Repository.Directory))
      && (FolderExistsAtPath(Some(name), container, fs) == Success(true) ==> FileExistsAtPath(name, container, fs) == Success(true))
  {
  }

  /** An unresolved container fails every container-addressed operation the same way, before any disk effect. */
  lemma UnresolvedContainerGuard(container: EnabledContainer, fs: FileSystem, name: string, folder: Option<string>,
                                 w: FileWrapper, data: Bytes, ofType: AcceptedType)
    requires GetBaseUrl(container, fs).None?
    ensures CreateFolder(name, container, fs) == Failure(UnableToLocateContainerRootFolder)
    ensures ListFiles(folder, container, fs) == Failure(UnableToLocateContainerRootFolder)
    ensures SaveWrapper(name, w, container, fs) == Failure(UnableToLocateContainerRootFolder)
    ensures SaveFile(name, data, ofType, container, fs) == Failure(UnableToLocateContainerRootFolder)
    ensures RemoveFile(name, container, fs) == Failure(UnableToLocateContainerRootFolder)
    ensures FileExists(name, container, fs) == Failure(UnableToLocateContainerRootFolder)
    ensures FolderExists(folder, container, fs) == Failure(UnableToLocateContainerRootFolder)
  {
  }

  /**
   * The outcome does not depend on the disk at all when the container is unresolved:
   * two file systems that agree on the roots give the same answers.
   */
  lemma GuardPrecedesDisk(container: EnabledContainer, fs: FileSystem, other: FileSystem, name: string)
    requires GetBaseUrl(container, fs).None?
    requires other.groupContainer == fs.groupContainer && other.documentsDirectory == fs.documentsDirectory
    ensures CreateFolder(name, container, fs) == CreateFolder(name, container, other)
    ensures RemoveFile(name, container, fs) == RemoveFile(name, container, other)
    ensures ListFiles(Some(name), container, fs) == ListFiles(Some(name), container, other)
  {
  }

  /** Once the container resolves, every thrown error is reported as `undefined`. */
  lemma ThrownErrorsAreUndefined(container: EnabledContainer, fs: FileSystem, name: string)
    requires GetBaseUrl(container, fs).Some?
    ensures CreateFolder(name, container, fs).Failure? ==> CreateFolder(name, container, fs).error == Undefined
    ensures RemoveFile(name, container, fs).Failure? ==> RemoveFile(name, container, fs).error == Undefined
    ensures ListFiles(Some(name), container, fs).Failure? ==> ListFiles(Some(name), container, fs).error == Undefined
  {
  }

  /** `folderExists(nil)` asks about the container root itself, and is true only for a directory. */
  lemma FolderExistsOfRoot(container: EnabledContainer, fs: FileSystem)
    requires GetBaseUrl(container, fs).Some?
    ensures FolderExists(None, container, fs) == Success(fs.entryAt(GetBaseUrl(container, fs).value) == Some(Repository.Directory))
  {
  }

  /** `fileExists` is also true for a directory; `folderExists` is true only for one. */
  lemma ExistenceChecks(container: EnabledContainer, fs: FileSystem, name: string)
    requires GetBaseUrl(container, fs).Some?
    ensures var path := Appending(GetBaseUrl(container, fs).value, name);
      && FileExists(name, container, fs) == Success(fs.entryAt(path).Some?)
      && FolderExists(Some(name), container, fs) == Success(fs.entryAt(path) == Some(Repository.Directory))
      && (FolderExists(Some(name), container, fs) == Success(true) ==> FileExists(name, container, fs) == Success(true))
  {
  }

  /**
   * `clearFolder(withName:using:)`: lists the folder, parses the listed strings back into URLs,
   * and removes them one after the other, stopping at the first removal that throws.
   * `removed` is the URLs whose removal took place.
   */
  method ClearFolder(folderName: string, container: EnabledContainer, fs: FileSystem) returns (r: Output, removed: seq<Url>)
    ensures GetBaseUrl(container, fs).None? ==> r == Failure(UnableToLocateContainerRootFolder) && removed == []
    ensures ListFiles(Some(folderName), container, fs).Failure? ==> r == Failure(ListFiles(Some(folderName), container, fs).error) && removed == []
    ensures ListFiles(Some(folderName), container, fs).Success? ==>
      var urls := CompactMap(ListFiles(Some(folderName), container, fs).value, fs.parseUrl);
      && |removed| <= |urls|
      && removed == urls[..|removed|]
      && (forall i :: 0 <= i < |removed| ==> fs.removeItem(removed[i]).None?)
      && (r == Success(true) <==> removed == urls)
      && (r != Success(true) ==> r == Failure(Undefined) && fs.removeItem(urls[|removed|]).Some?)
  {
    if GetBaseUrl(container, fs).None? {
      return Failure(UnableToLocateContainerRootFolder), [];
    }
    var listing := ListFiles(Some(folderName), container, fs);
    match listing
    case Failure(e) =>
      r, removed := Failure(e), [];
    case Success(content) =>
      var urls := CompactMap(content, fs.parseUrl);
      removed := [];
      var i := 0;
      while i < |urls|
        invariant 0 <= i <= |urls|
        invariant removed == urls[..i]
        invariant forall j :: 0 <= j < i ==> fs.removeItem(urls[j]).None?
      {
        match fs.removeItem(urls[i])
        case Some(code) =>
          return Failure(ParseError(code)), removed;
        case None =>
          removed := removed + [urls[i]];
          i := i + 1;
      }
      r := Success(true);
  }

  /** `fileType(url:)`, on the URL's path extension. */
  function FileTypeFor(pathExtension: string): AcceptedType {
    var ext := AssetTools.Lowercased(pathExtension);
    if ext == "pdf" then Pdf
    else if ext == "jpg" || ext == "jpeg" || ext == "png" then Image
    else if ext == "txt" || ext == "md" then Text
    else Data
  }

  function FileType(url: Url): (t: AcceptedType)
    ensures t != Movie
  {
    FileTypeFor(PathExtension(url))
  }

  /** The accepted type naming the same kind of content as an asset type. */
  function Accepted(t: Assets.AssetType): AcceptedType {
    match t
    case Image => Image
    case Text => Text
    case Pdf => Pdf
    case Movie => Movie
    case Data => Data
  }

  /**
   * The two classifications agree except on movies: `fileType` has no movie branch,
   * so `mov` and `mp4` files are plain data to it.
   */
  lemma FileTypeVersusAssetType(pathExtension: string)
    ensures FileTypeFor(pathExtension) != Movie
    ensures AssetTools.AssetTypeFor(pathExtension) == Assets.Movie ==> FileTypeFor(pathExtension) == Data
    ensures AssetTools.AssetTypeFor(pathExtension) != Assets.Movie ==>
      FileTypeFor(pathExtension) == Accepted(AssetTools.AssetTypeFor(pathExtension))
  {
  }
}

=== FILE: file_wrappers.dfy ===
/** Foundation's `FileWrapper`, as a value: a regular file's bytes or a directory of named wrappers. */
module FileWrappers {
  import opened Utf8

  datatype FileWrapper =
    | RegularFile(contents: Bytes)
    | DirectoryWrapper(entries: map<string, FileWrapper>)
}

=== FILE: in_memory.dfy ===
/**
 * `InMemoryRepository`: the repository used by the tests, keeping folders, files and
 * wrappers in memory and updating them in place.  Each method is proved to follow the
 * matching function of `InMemoryStore`, where the properties of the operations are proved.
 */
module InMemory {
  import opened Results
  import opened Urls
  import opened Utf8
  import opened Repository
  import opened FileWrappers
  import S = InMemoryStore

  class InMemoryRepository {
    var folders: seq<Url>
    var files: map<Url, Bytes>
    var wrappers: map<Url, FileWrapper>
    /** The platform's documents folder, which the base class resolves roots against. */
    const documents: Url

    function State(): S.Store
      reads this
    {
      S.Store(folders, files, wrappers)
    }

    /** `init(folders:files:wrappers:)`: folders are stored in directory form. */
    constructor (documents: Url, folders: seq<Url>, files: map<Url, Bytes>, wrappers: map<Url, FileWrapper>)
      ensures State() == S.Init(folders, files, wrappers) && this.documents == documents
    {
      this.documents := documents;
      this.folders := S.Normalized(folders);
      this.files := files;
      this.wrappers := wrappers;
    }

    /**
     * `root(for:)`, inherited: the in-memory repository is built without an app-group
     * identifier, so every container resolves to the documents folder.
     */
    function Root(container: EnabledContainer): (root: Url)
      reads this
      ensures root == documents
    {
      Repository.Root(container, None, Platform(documents, (id: string) => None))
    }

    method FileExists(name: Url) returns (r: Result<bool, FileRepositoryError>)
      ensures r == S.FileExists(State(), name)
    {
      var fileExist := name in files;
      return Success(fileExist);
    }

    method FolderExists(name: Url) returns (r: Result<bool, FileRepositoryError>)
      ensures r == S.FolderExists(State(), name)
    {
      var folderExist := name in folders;
      return Success(folderExist);
    }

    method CreateFolder(name: Url) returns (r: Result<bool, FileRepositoryError>)
      modifies this
      ensures (State(), r) == S.CreateFolder(old(State()), name)
    {
      var itExists := FolderExists(name);
      if itExists.value {
        return Failure(FolderAlreadyExist(name));
      }
      folders := folders + [name];
      return Success(true);
    }

    /**
     * `listFolder`: fails on a registered folder (the guard is inverted), otherwise
     * describes every stored file whose URL starts with the folder's, in no particular order.
     */
    method ListFolder(name: Url) returns (r: Result<seq<FileDescriptor>, FileRepositoryError>)
      ensures r.Failure? <==> name in folders
      ensures r.Failure? ==> r.error == FolderAlreadyExist(name)
      ensures r.Success? ==> S.Lists(r.value, S.Listed(State(), name))
    {
      var itExists := FolderExists(name);
      if itExists.value {
        return Failure(FolderAlreadyExist(name));
      }
      var pending := files.Keys;
      var listing: seq<FileDescriptor> := [];
      while pending != {}
        invariant pending <= files.Keys
        invariant forall i :: 0 <= i < |listing| ==>
          listing[i].url in S.Listed(State(), name) && listing[i].url !in pending && listing[i].preloaded == None
        invariant forall u :: u in S.Listed(State(), name) && u !in pending ==>
          exists i :: 0 <= i < |listing| && listing[i].url == u
        invariant forall i, j :: 0 <= i < j < |listing| ==> listing[i].url != listing[j].url
        decreases pending
      {
        var u :| u in pending;
        pending := pending - {u};
        if HasPrefix(u, name) {
          ghost var before := listing;
          listing := listing + [FileDescriptor(u, None)];
          assert listing[|before|].url == u;
          assert forall i :: 0 <= i < |before| ==> listing[i] == before[i];
        }
      }
      return Success(listing);
    }

    method LoadFile(name: Url) returns (r: Result<FileDescriptor, FileRepositoryError>)
      ensures r == S.LoadFile(State(), name)
    {
      var itExists := FileExists(name);
      if !itExists.value {
        return Failure(FileDoNotExist(name));
      }
      var filedata := files[name];
      return Success(FileDescriptor(name, Some(filedata)));
    }

    method SaveFileWrapper(name: Url, w: FileWrapper) returns (r: Result<bool, FileRepositoryError>)
      modifies this
      ensures (State(), r) == S.SaveFileWrapper(old(State()), name, w)
    {
      wrappers := wrappers[name := w];
      return Success(true);
    }

    method CreateFile(name: Url, data: Bytes) returns (r: Result<bool, FileRepositoryError>)
      modifies this
      ensures (State(), r) == S.CreateFile(old(State()), name, data)
    {
      var folder := DeletingLastComponent(name);
      var itExists := FolderExists(folder);
      if !itExists.value {
        return Failure(FolderDoNotExist(folder));
      }
      files := files[name := data];
      return Success(true);
    }

    method AppendToFile(name: Url, data: Bytes) returns (r: Result<bool, FileRepositoryError>)
      modifies this
      ensures (State(), r) == S.AppendToFile(old(State()), name, data)
    {
      if name !in files {
        files := files[name := data];
        return Success(true);
      }
      var persisted := files[name];
      if !Valid(persisted) {
        return Failure(UnableToAccessDisk);
      }
      if !Valid(data) {
        return Failure(Undefined);
      }
      files := files[name := persisted + data];
      return Success(true);
    }

    method RemoveFile(name: Url) returns (r: Result<bool, FileRepositoryError>)
      modifies this
      ensures (State(), r) == S.RemoveFile(old(State()), name)
    {
      var itExists := FileExists(name);
      if !itExists.value {
        return Failure(FileDoNotExist(name));
      }
      files := files - {name};
      return Success(true);
    }

    method GetData(name: Url) returns (data: Option<Bytes>)
      ensures data == S.GetData(State(), name)
    {
      if name in files {
        return Some(files[name]);
      }
      return None;
    }
  }
}

=== FILE: in_memory_store.dfy ===
/**
 * The behaviour of `InMemoryRepository` as functions on its three pieces of state:
 * the registered folders (a list), the files (URL to bytes) and the saved wrappers
 * (URL to `FileWrapper`).  Each operation gives the new state and the `Result` it returns.
 * The class `InMemory.InMemoryRepository` is proved to follow these functions.
 */
module InMemoryStore {
  import opened Results
  import opened Urls
  import opened Utf8
  import opened Repository
  import opened FileWrappers

  datatype Store = Store(folders: seq<Url>, files: map<Url, Bytes>, wrappers: map<Url, FileWrapper>)

  type Outcome = Result<bool, FileRepositoryError>

  /** The folders the initialiser stores: each in directory (trailing-slash) form. */
  function Normalized(folders: seq<Url>): (stored: seq<Url>)
    ensures |stored| == |folders|
    ensures forall i :: 0 <= i < |folders| ==> stored[i] == AsDirectory(folders[i])
  {
    seq(|folders|, i requires 0 <= i < |folders| => AsDirectory(folders[i]))
  }

  function Init(folders: seq<Url>, files: map<Url, Bytes>, wrappers: map<Url, FileWrapper>): Store {
    Store(Normalized(folders), files, wrappers)
  }

  /** `fileExists`: a key of the files map (wrappers are not files). */
  function FileExists(s: Store, name: Url): Result<bool, FileRepositoryError> {
    Success(name in s.files)
  }

  /** `folderExists`: exact membership in the folder list. */
  function FolderExists(s: Store, name: Url): Result<bool, FileRepositoryError> {
    Success(name in s.folders)
  }

  function CreateFolder(s: Store, name: Url): (Store, Outcome) {
    if FolderExists(s, name).value then (s, Failure(FolderAlreadyExist(name)))
    else (s.(folders := s.folders + [name]), Success(true))
  }

  /** The URLs `listFolder` reports for a folder it does list: stored files whose URL starts with the folder's. */
  ghost function Listed(s: Store, folder: Url): set<Url> {
    set u | u in s.files && HasPrefix(u, folder)
  }

  /** `listing` describes each URL of `urls` exactly once, without preloaded data. */
  ghost predicate Lists(listing: seq<FileDescriptor>, urls: set<Url>) {
    && (forall i :: 0 <= i < |listing| ==> listing[i].url in urls && listing[i].preloaded == None)
    && (forall u :: u in urls ==> exists i :: 0 <= i < |listing| && listing[i].url == u)
    && (forall i, j :: 0 <= i < j < |listing| ==> listing[i].url != listing[j].url)
  }

  function LoadFile(s: Store, name: Url): Result<FileDescriptor, FileRepositoryError> {
    if FileExists(s, name).value then Success(FileDescriptor(name, Some(s.files[name])))
    else Failure(FileDoNotExist(name))
  }

  function SaveFileWrapper(s: Store, name: Url, w: FileWrapper): (Store, Outcome) {
    (s.(wrappers := s.wrappers[name := w]), Success(true))
  }

  function CreateFile(s: Store, name: Url, data: Bytes): (Store, Outcome) {
    var folder := DeletingLastComponent(name);
    if FolderExists(s, folder).value then (s.(files := s.files[name := data]), Success(true))
    else (s, Failure(FolderDoNotExist(folder)))
  }

  /**
   * `appendToFile`: an absent file is created with the data (no folder check); for a present
   * file both the stored and the new bytes must decode as UTF-8, and the re-encoded
   * concatenation is stored.
   */
  function AppendToFile(s: Store, name: Url, data: Bytes): (Store, Outcome) {
    if name !in s.files then (s.(files := s.files[name := data]), Success(true))
    else if !Valid(s.files[name]) then (s, Failure(UnableToAccessDisk))
    else if !Valid(data) then (s, Failure(Undefined))
    else (s.(files := s.files[name := s.files[name] + data]), Success(true))
  }

  function RemoveFile(s: Store, name: Url): (Store, Outcome) {
    if FileExists(s, name).value then (s.(files := s.files - {name}), Success(true))
    else (s, Failure(FileDoNotExist(name)))
  }

  /** `getData(for:)`. */
  function GetData(s: Store, name: Url): Option<Bytes> {
    if name in s.files then Some(s.files[name]) else None
  }

  // ---------------------------------------------------------------------------
  // Folders

  /** An initial folder is found by its slash-terminated URL, and only registered folders are found. */
  lemma InitFolderFound(folders: seq<Url>, files: map<Url, Bytes>, wrappers: map<Url, FileWrapper>, u: Url)
    ensures FolderExists(Init(folders, files, wrappers), u).value
            <==> exists i :: 0 <= i < |folders| && u == AsDirectory(folders[i])
  {
    var stored := Normalized(folders);
    if u in stored {
      var i :| 0 <= i < |stored| && stored[i] == u;
      assert u == AsDirectory(folders[i]);
    }
  }

  /** An initial folder is never found by a URL without the trailing slash. */
  lemma InitFolderNotFoundWithoutSlash(folders: seq<Url>, files: map<Url, Bytes>, wrappers: map<Url, FileWrapper>, u: Url)
    requires !EndsWithSlash(u)
    ensures FolderExists(Init(folders, files, wrappers), u) == Success(false)
  {
    InitFolderFound(folders, files, wrappers, u);
  }

  /** After `createFolder`, successful or not, the folder is registered; a second call fails and changes nothing. */
  lemma CreateFolderTwice(s: Store, name: Url)
    ensures FolderExists(CreateFolder(s, name).0, name) == Success(true)
    ensures var s1 := CreateFolder(s, name).0;
            CreateFolder(s1, name) == (s1, Failure(FolderAlreadyExist(name)))
  {
  }

  /** `createFolder` fails exactly on a registered folder, leaving the state alone; otherwise it appends the URL as given. */
  lemma CreateFolderSpec(s: Store, name: Url)
    ensures var (s1, r) := CreateFolder(s, name);
      && (r.Failure? <==> name in s.folders)
      && (r.Failure? ==> s1 == s && r.error == FolderAlreadyExist(name))
      && (r.Success? ==> r.value && s1.folders == s.folders + [name] && s1.files == s.files && s1.wrappers == s.wrappers)
  {
  }

  // ---------------------------------------------------------------------------
  // Files

  /** `createFile` succeeds exactly when the parent folder is registered; then the file holds exactly the data. */
  lemma CreateFileSpec(s: Store, name: Url, data: Bytes)
    ensures var (s1, r) := CreateFile(s, name, data);
      && (r.Success? <==> DeletingLastComponent(name) in s.folders)
      && (r.Failure? ==> s1 == s && r.error == FolderDoNotExist(DeletingLastComponent(name)))
      && (r.Success? ==> LoadFile(s1, name) == Success(FileDescriptor(name, Some(data)))
                         && s1.folders == s.folders && s1.wrappers == s.wrappers
                         && forall u :: u != name ==> GetData(s1, u) == GetData(s, u))
  {
  }

  /** A file created under a folder registered in directory form is accepted. */
  lemma CreateFileInRegisteredFolder(s: Store, folder: Url, c: string, data: Bytes)
    requires IsComponent(c) && AsDirectory(folder) in s.folders
    ensures CreateFile(s, Appending(folder, c), data).1 == Success(true)
    ensures GetData(CreateFile(s, Appending(folder, c), data).0, Appending(folder, c)) == Some(data)
  {
    ParentOfAppending(folder, c);
  }

  /**
   * `createFolder` stores the URL as given, while `createFile` looks up the parent in directory
   * form: a folder created without its trailing slash does not accept files.
   */
  lemma CreateFileAfterSlashlessCreateFolder(s: Store, folder: Url, c: string, data: Bytes)
    requires IsComponent(c) && !EndsWithSlash(folder) && AsDirectory(folder) !in s.folders
    ensures var s1 := CreateFolder(s, folder).0;
            CreateFile(s1, Appending(folder, c), data) == (s1, Failure(FolderDoNotExist(AsDirectory(folder))))
  {
    ParentOfAppending(folder, c);
    var s1 := CreateFolder(s, folder).0;
    assert AsDirectory(folder) != folder;
    assert AsDirectory(folder) !in s1.folders;
  }

  /** Appending to an absent file stores exactly the appended bytes, whatever the folders are. */
  lemma AppendToAbsentFile(s: Store, name: Url, data: Bytes)
    requires name !in s.files
    ensures AppendToFile(s, name, data).1 == Success(true)
    ensures GetData(AppendToFile(s, name, data).0, name) == Some(data)
    ensures AppendToFile(s, name, data).0.folders == s.folders
  {
  }

  /** Appending to a present file: concatenation when both decode, otherwise the matching error and no change. */
  lemma AppendToPresentFile(s: Store, name: Url, data: Bytes)
    requires name in s.files
    ensures var (s1, r) := AppendToFile(s, name, data);
      && (Valid(s.files[name]) && Valid(data) ==> r == Success(true) && GetData(s1, name) == Some(s.files[name] + data))
      && (!Valid(s.files[name]) ==> (s1, r) == (s, Failure(UnableToAccessDisk)))
      && (Valid(s.files[name]) && !Valid(data) ==> (s1, r) == (s, Failure(Undefined)))
  {
  }

  /** A successful append keeps a log file decodable: a stored UTF-8 file stays UTF-8. */
  lemma AppendKeepsValid(s: Store, name: Url, data: Bytes)
    requires name in s.files ==> Valid(s.files[name])
    requires Valid(data)
    ensures AppendToFile(s, name, data).1 == Success(true)
    ensures Valid(AppendToFile(s, name, data).0.files[name])
  {
    if name in s.files {
      ConcatValid(s.files[name], data);
    }
  }

  /** Two successful appends are one append of the concatenation. */
  lemma AppendTwice(s: Store, name: Url, a: Bytes, b: Bytes)
    requires name in s.files && Valid(s.files[name])
    requires Valid(a) && Valid(b)
    ensures AppendToFile(AppendToFile(s, name, a).0, name, b) == AppendToFile(s, name, a + b)
  {
    var stored := s.files[name];
    ConcatValid(stored, a);
    ConcatValid(a, b);
    AppendConcatenates(s, name, a);
    var s1 := s.(files := s.files[name := stored + a]);
    AppendConcatenates(s1, name, b);
    AppendConcatenates(s, name, a + b);
    ConcatAssociative(stored, a, b);
    assert s1.files[name := (stored + a) + b] == s.files[name := stored + (a + b)];
    assert AppendToFile(s, name, a).0 == s1;
    assert AppendToFile(s1, name, b) == AppendToFile(s, name, a + b);
  }

  /** Sequence concatenation is associative; a lemma of its own keeps `AppendTwice` cheap to prove. */
  lemma ConcatAssociative(x: Bytes, y: Bytes, z: Bytes)
    ensures (x + y) + z == x + (y + z)
  {
  }

  lemma AppendConcatenates(s: Store, name: Url, data: Bytes)
    requires name in s.files && Valid(s.files[name]) && Valid(data)
    ensures AppendToFile(s, name, data) == (s.(files := s.files[name := s.files[name] + data]), Success(true))
  {
  }

  /** `removeFile` of an absent file fails and changes nothing; of a present file it drops that key only. */
  lemma RemoveFileSpec(s: Store, name: Url)
    ensures var (s1, r) := RemoveFile(s, name);
      && (r.Success? <==> name in s.files)
      && (r.Failure? ==> s1 == s && r.error == FileDoNotExist(name))
      && (r.Success? ==> FileExists(s1, name) == Success(false)
                         && s1.folders == s.folders && s1.wrappers == s.wrappers
                         && forall u :: u != name ==> GetData(s1, u) == GetData(s, u))
  {
  }

  /** Creating a file that was absent and removing it again restores the files map. */
  lemma CreateThenRemoveRestores(s: Store, name: Url, data: Bytes)
    requires name !in s.files
    requires CreateFile(s, name, data).1.Success?
    ensures RemoveFile(CreateFile(s, name, data).0, name) == (s, Success(true))
  {
    assert s.files[name := data] - {name} == s.files;
  }

  /** A saved wrapper is never seen as a file by `fileExists` or `loadFile`. */
  lemma WrapperIsNotAFile(s: Store, name: Url, w: FileWrapper)
    ensures SaveFileWrapper(s, name, w).1 == Success(true)
    ensures FileExists(SaveFileWrapper(s, name, w).0, name) == FileExists(s, name)
    ensures LoadFile(SaveFileWrapper(s, name, w).0, name) == LoadFile(s, name)
    ensures name !in s.files ==> LoadFile(SaveFileWrapper(s, name, w).0, name) == Failure(FileDoNotExist(name))
  {
  }

  /** A created file is listed under every unregistered prefix of its URL. */
  lemma CreatedFileIsListed(s: Store, name: Url, data: Bytes, folder: Url)
    requires CreateFile(s, name, data).1.Success? && HasPrefix(name, folder)
    ensures name in Listed(CreateFile(s, name, data).0, folder)
  {
  }
}

=== FILE: log_names.dfy ===
/**
 * The monthly log-file names of `AppSystem`: `<year>-<month>_<prefix>.log` with the month
 * printed as `%02d`.  The calendar is not modelled: the year and month of the current
 * date are parameters.
 */
module LogNames {
  import opened Urls

  const SYS_LOG_PREFIX: string := "operations"
  const SYS_DIAGNOSE_PREFIX: string := "diagnose"
  const SYS_ERROR_PREFIX: string := "errors"

  predicate IsDigit(c: char) {
    '0' <= c <= '9'
  }

  function DigitChar(d: nat): (c: char)
    requires d < 10
    ensures IsDigit(c) && c as int - '0' as int == d
  {
    ('0' as int + d) as char
  }

  /** The decimal digits of a natural number, most significant first, without leading zeros. */
  function NatText(n: nat): (s: string)
    ensures |s| >= 1
    ensures forall i :: 0 <= i < |s| ==> IsDigit(s[i])
    ensures n < 10 <==> |s| == 1
    decreases n
  {
    if n < 10 then [DigitChar(n)] else NatText(n / 10) + [DigitChar(n % 10)]
  }

  /** Swift's interpolation of an `Int`. */
  function IntText(n: int): string {
    if n < 0 then "-" + NatText(-n) else NatText(n)
  }

  /** `String(format: "%02d", n)`: at least two characters, padded with a leading zero. */
  function Pad2(n: int): string {
    if 0 <= n < 10 then "0" + NatText(n) else IntText(n)
  }

  function LogFileName(year: int, month: int, prefix: string): string {
    IntText(year) + "-" + Pad2(month) + "_" + prefix + ".log"
  }

  predicate EndsWith(s: string, suffix: string) {
    |suffix| <= |s| && s[|s| - |suffix|..] == suffix
  }

  /** Whatever the date, a log name ends with its prefix and the `.log` extension. */
  lemma LogFileNameSuffix(year: int, month: int, prefix: string)
    ensures EndsWith(LogFileName(year, month, prefix), "_" + prefix + ".log")
  {
    var tail := "_" + prefix + ".log";
    var head := IntText(year) + "-" + Pad2(month);
    assert LogFileName(year, month, prefix) == head + tail;
  }

  /** `sysLogFileName`: a single path component ending in `_operations.log`. */
  function SysLogFileName(year: int, month: int): (name: string)
    ensures IsComponent(name)
    ensures EndsWith(name, "_" + SYS_LOG_PREFIX + ".log")
  {
    assert IsComponent(SYS_LOG_PREFIX);
    LogFileNameIsComponent(year, month, SYS_LOG_PREFIX);
    LogFileNameSuffix(year, month, SYS_LOG_PREFIX);
    LogFileName(year, month, SYS_LOG_PREFIX)
  }

  /** `sysDiagnoseFileName`: a single path component ending in `_diagnose.log`. */
  function SysDiagnoseFileName(year: int, month: int): (name: string)
    ensures IsComponent(name)
    ensures EndsWith(name, "_" + SYS_DIAGNOSE_PREFIX + ".log")
  {
    assert IsComponent(SYS_DIAGNOSE_PREFIX);
    LogFileNameIsComponent(year, month, SYS_DIAGNOSE_PREFIX);
    LogFileNameSuffix(year, month, SYS_DIAGNOSE_PREFIX);
    LogFileName(year, month, SYS_DIAGNOSE_PREFIX)
  }

  /** `sysErrorFileName`: a single path component ending in `_errors.log`. */
  function SysErrorFileName(year: int, month: int): (name: string)
    ensures IsComponent(name)
    ensures EndsWith(name, "_" + SYS_ERROR_PREFIX + ".log")
  {
    assert IsComponent(SYS_ERROR_PREFIX);
    LogFileNameIsComponent(year, month, SYS_ERROR_PREFIX);
    LogFileNameSuffix(year, month, SYS_ERROR_PREFIX);
    LogFileName(year, month, SYS_ERROR_PREFIX)
  }

  /** Months are printed with exactly two digits, the ones before October with a leading zero. */
  lemma MonthIsTwoDigits(month: int)
    requires 1 <= month <= 12
    ensures |Pad2(month)| == 2 && IsDigit(Pad2(month)[0]) && IsDigit(Pad2(month)[1])
    ensures month <= 9 ==> Pad2(month) == ['0', DigitChar(month)]
    ensures month >= 10 ==> Pad2(month) == ['1', DigitChar(month - 10)]
  {
    if month >= 10 {
      assert NatText(month) == NatText(1) + [DigitChar(month % 10)];
    }
  }

  lemma Pad2Injective(m1: int, m2: int)
    requires 1 <= m1 <= 12 && 1 <= m2 <= 12
    requires Pad2(m1) == Pad2(m2)
    ensures m1 == m2
  {
    MonthIsTwoDigits(m1);
    MonthIsTwoDigits(m2);
    assert Pad2(m1)[1] == Pad2(m2)[1];
  }

  lemma {:induction false} NatTextInjective(a: nat, b: nat)
    requires NatText(a) == NatText(b)
    ensures a == b
    decreases a
  {
    if a >= 10 && b >= 10 {
      var ta, tb := NatText(a / 10), NatText(b / 10);
      assert NatText(a) == ta + [DigitChar(a % 10)];
      assert NatText(b) == tb + [DigitChar(b % 10)];
      assert DigitChar(a % 10) == NatText(a)[|NatText(a)| - 1] == DigitChar(b % 10);
      assert ta == NatText(a)[..|NatText(a)| - 1] == tb;
      NatTextInjective(a / 10, b / 10);
    } else if a < 10 && b < 10 {
      assert NatText(a)[0] == NatText(b)[0];
    }
  }

  /** In `a + "-" + x` with no dash in `a`, the first dash is at index `|a|`. */
  lemma FirstDash(a: string, x: string)
    requires forall i :: 0 <= i < |a| ==> a[i] != '-'
    ensures (a + "-" + x)[|a|] == '-'
    ensures forall i :: 0 <= i < |a| ==> (a + "-" + x)[i] != '-'
  {
  }

  /** Strings without a dash are recovered from what precedes the first dash. */
  lemma SplitAtDash(a: string, x: string, b: string, y: string)
    requires forall i :: 0 <= i < |a| ==> a[i] != '-'
    requires forall i :: 0 <= i < |b| ==> b[i] != '-'
    requires a + "-" + x == b + "-" + y
    ensures a == b && x == y
  {
    var s := a + "-" + x;
    FirstDash(a, x);
    FirstDash(b, y);
    assert |a| == |b|;
    assert a == s[..|a|];
    assert b == s[..|b|];
    assert x == s[|a| + 1..];
    assert y == s[|b| + 1..];
  }

  lemma SamePrefix(p: string, q: string, r1: string, r2: string)
    requires |p| == |q| && p + r1 == q + r2
    ensures p == q
  {
    assert p == (p + r1)[..|p|];
    assert q == (q + r2)[..|q|];
  }

  lemma NameAfterYear(year: nat, month: int, prefix: string)
    ensures LogFileName(year, month, prefix) == NatText(year) + "-" + (Pad2(month) + ("_" + prefix + ".log"))
  {
  }

  /** Different months (of years from 0 on) always get different files: the rotation is exactly monthly. */
  lemma {:induction false} LogFileNameInjective(y1: int, m1: int, y2: int, m2: int, prefix: string)
    requires y1 >= 0 && y2 >= 0 && 1 <= m1 <= 12 && 1 <= m2 <= 12
    requires LogFileName(y1, m1, prefix) == LogFileName(y2, m2, prefix)
    ensures y1 == y2 && m1 == m2
  {
    var tail := "_" + prefix + ".log";
    NameAfterYear(y1, m1, prefix);
    NameAfterYear(y2, m2, prefix);
    SplitAtDash(NatText(y1), Pad2(m1) + tail, NatText(y2), Pad2(m2) + tail);
    NatTextInjective(y1, y2);
    MonthIsTwoDigits(m1);
    MonthIsTwoDigits(m2);
    SamePrefix(Pad2(m1), Pad2(m2), tail, tail);
    Pad2Injective(m1, m2);
  }

  /** The three logs of one month are three different files. */
  lemma ThreeLogsDiffer(year: int, month: int)
    ensures SysLogFileName(year, month) != SysDiagnoseFileName(year, month)
    ensures SysLogFileName(year, month) != SysErrorFileName(year, month)
    ensures SysDiagnoseFileName(year, month) != SysErrorFileName(year, month)
  {
    var head := IntText(year) + "-" + Pad2(month) + "_";
    assert |SysLogFileName(year, month)| == |head| + 14;
    assert |SysDiagnoseFileName(year, month)| == |head| + 12;
    assert |SysErrorFileName(year, month)| == |head| + 10;
  }

  /** A log name is a single path component, so it names a file directly inside the folder it is appended to. */
  lemma {:induction false} LogFileNameIsComponent(year: int, month: int, prefix: string)
    requires IsComponent(prefix) || prefix == ""
    ensures IsComponent(LogFileName(year, month, prefix))
  {
    var name := LogFileName(year, month, prefix);
    var y := IntText(year);
    var p := Pad2(month);
    assert forall i :: 0 <= i < |y| ==> y[i] != '/';
    assert forall i :: 0 <= i < |p| ==> p[i] != '/';
    forall i | 0 <= i < |name|
      ensures name[i] != '/'
    {
      if i < |y| {
        assert name[i] == y[i];
      } else if i == |y| {
        assert name[i] == '-';
      } else if i < |y| + 1 + |p| {
        assert name[i] == p[i - |y| - 1];
      } else if i == |y| + 1 + |p| {
        assert name[i] == '_';
      } else if i < |y| + 2 + |p| + |prefix| {
        assert name[i] == prefix[i - |y| - 2 - |p|];
      } else {
        assert name[i] == ".log"[i - |y| - 2 - |p| - |prefix|];
      }
    }
  }

  /** Each of the three log names of a month is a single path component. */
  lemma LogNamesAreComponents(year: int, month: int)
    ensures IsComponent(SysLogFileName(year, month))
    ensures IsComponent(SysDiagnoseFileName(year, month))
    ensures IsComponent(SysErrorFileName(year, month))
  {
    assert IsComponent(SYS_LOG_PREFIX);
    assert IsComponent(SYS_DIAGNOSE_PREFIX);
    assert IsComponent(SYS_ERROR_PREFIX);
    LogFileNameIsComponent(year, month, SYS_LOG_PREFIX);
    LogFileNameIsComponent(year, month, SYS_DIAGNOSE_PREFIX);
    LogFileNameIsComponent(year, month, SYS_ERROR_PREFIX);
  }
}

=== FILE: main_view.dfy ===
/**
 * The main screen's navigation buttons: the `NavigationOption` cases with their
 * identifiers, images and the asset list each one opens, and the chunking of all
 * options into rows of `numberOfButtons` buttons (`MainViewButtonSet.buttonsArray`).
 */
module Navigation {
  import opened Results

  datatype NavigationOption = Links | Photos | Videos | Docs | Text | Contacts | Passwd | Cards | Plus

  /** The kind of asset an `AssetList` shows; only the cases the main screen opens. */
  datatype ListType = Url | Image | Movie | Pdf | Text | Contact | Password | CreditCard

  /** Where an option is declared, counting from zero. */
  function Position(o: NavigationOption): nat {
    match o
    case Links => 0
    case Photos => 1
    case Videos => 2
    case Docs => 3
    case Text => 4
    case Contacts => 5
    case Passwd => 6
    case Cards => 7
    case Plus => 8
  }

  /** `NavigationOption.allCases`: the nine options, each at its declaration position. */
  function AllCases(): (all: seq<NavigationOption>)
    ensures |all| == 9
    ensures forall o :: all[Position(o)] == o
  {
    [Links, Photos, Videos, Docs, NavigationOption.Text, Contacts, Passwd, Cards, Plus]
  }

  /** `allCases` lists every option exactly once. */
  lemma AllCasesComplete()
    ensures |AllCases()| == 9
    ensures forall o: NavigationOption :: o in AllCases()
    ensures forall i, j :: 0 <= i < j < |AllCases()| ==> AllCases()[i] != AllCases()[j]
  {
    var all := AllCases();
    forall o: NavigationOption
      ensures o in all
    {
      match o
      case Links => assert all[0] == o;
      case Photos => assert all[1] == o;
      case Videos => assert all[2] == o;
      case Docs => assert all[3] == o;
      case Text => assert all[4] == o;
      case Contacts => assert all[5] == o;
      case Passwd => assert all[6] == o;
      case Cards => assert all[7] == o;
      case Plus => assert all[8] == o;
    }
  }

  /** `id`, which makes the options `Identifiable`: the option's image name. */
  function Id(o: NavigationOption): (id: string)
    ensures id == SystemImage(o)
  {
    match o
    case Links => "link"
    case Photos => "photo"
    case Videos => "video"
    case Docs => "doc"
    case Text => "doc.text"
    case Contacts => "person"
    case Passwd => "pencil.and.ellipsis.rectangle"
    case Cards => "creditcard"
    case Plus => "plus"
  }

  /** `systemImage`: the SF Symbol shown on the option's button; no two options share one. */
  function SystemImage(o: NavigationOption): (image: string)
    ensures OptionShowing(image) == Some(o)
  {
    match o
    case Links => "link"
    case Photos => "photo"
    case Videos => "video"
    case Docs => "doc"
    case Text => "doc.text"
    case Contacts => "person"
    case Passwd => "pencil.and.ellipsis.rectangle"
    case Cards => "creditcard"
    case Plus => "plus"
  }

  /** The option whose button shows the image `name`, if any. */
  function OptionShowing(name: string): Option<NavigationOption> {
    if name == "link" then Some(Links)
    else if name == "photo" then Some(Photos)
    else if name == "video" then Some(Videos)
    else if name == "doc" then Some(Docs)
    else if name == "doc.text" then Some(NavigationOption.Text)
    else if name == "person" then Some(Contacts)
    else if name == "pencil.and.ellipsis.rectangle" then Some(Passwd)
    else if name == "creditcard" then Some(Cards)
    else if name == "plus" then Some(Plus)
    else None
  }

  /** The two tables agree: an option's identifier is its image name. */
  lemma IdIsSystemImage(o: NavigationOption)
    ensures Id(o) == SystemImage(o)
  {
  }

  /** Identifiers tell options apart, as `Identifiable` requires of the buttons' `ForEach`. */
  lemma IdInjective(a: NavigationOption, b: NavigationOption)
    ensures Id(a) == Id(b) <==> a == b
  {
  }

  /** `assetView`: the asset list a button opens; only links and plus open the URL list. */
  function AssetView(o: NavigationOption): (list: ListType)
    ensures list == Url <==> o == Links || o == Plus
  {
    match o
    case Links => Url
    case Photos => Image
    case Videos => Movie
    case Docs => Pdf
    case Text => ListType.Text
    case Contacts => Contact
    case Passwd => Password
    case Cards => CreditCard
    case Plus => Url
  }

  /** Two buttons open the same list exactly when they are the same option, or the pair links/plus. */
  lemma AssetViewShared(a: NavigationOption, b: NavigationOption)
    ensures AssetView(a) == AssetView(b) <==> a == b || (a in {Links, Plus} && b in {Links, Plus})
  {
  }

  /** `numberOfButtons`: buttons per row, 3 in portrait and 5 in landscape. */
  function NumberOfButtons(isPortrait: bool): (n: nat)
    ensures 0 < n < |AllCases()|
  {
    if isPortrait then 3 else 5
  }

  /** The rows laid end to end. */
  function Flatten(rows: seq<seq<NavigationOption>>): seq<NavigationOption> {
    if |rows| == 0 then [] else Flatten(rows[..|rows| - 1]) + rows[|rows| - 1]
  }

  /**
   * `buttonsArray`: `allCases` cut into consecutive rows of `numberOfButtons`; the
   * last row holds what is left.  Laid end to end the rows give `allCases` back.
   */
  method ButtonsArray(isPortrait: bool) returns (rows: seq<seq<NavigationOption>>)
    ensures Flatten(rows) == AllCases()
    ensures |rows| > 0
    ensures forall i :: 0 <= i < |rows| - 1 ==> |rows[i]| == NumberOfButtons(isPortrait)
    ensures 1 <= |rows[|rows| - 1]| <= NumberOfButtons(isPortrait)
    ensures NumberOfButtons(isPortrait) * (|rows| - 1) < |AllCases()| <= NumberOfButtons(isPortrait) * |rows|
    ensures isPortrait ==> |rows| == 3
    ensures !isPortrait ==> |rows| == 2
  {
    var all := AllCases();
    var k := NumberOfButtons(isPortrait);
    rows := [];
    var pointer := 0;
    while pointer < |all|
      invariant pointer == k * |rows|
      invariant pointer <= |all| ==> Flatten(rows) == all[..pointer]
      invariant pointer > |all| ==> Flatten(rows) == all
      invariant |rows| > 0 ==> pointer - k < |all|
      invariant forall i :: 0 <= i < |rows| ==> |rows[i]| == k || (i == |rows| - 1 && |all| <= pointer)
      invariant forall i :: 0 <= i < |rows| ==> 1 <= |rows[i]| <= k
      decreases |all| - pointer
    {
      var endIndex := if pointer + k >= |all| then |all| - 1 else pointer + k - 1;
      var slice := all[pointer..endIndex + 1];
      FlattenAppend(rows, slice);
      TakeExtended(all, pointer, endIndex + 1);
      NextMultiple(k, |rows|);
      rows := rows + [slice];
      pointer := pointer + k;
    }
    RowCount(k, |rows|, pointer);
  }

  /** Laying one more row after the others extends the flattened rows by that row. */
  lemma FlattenAppend(rows: seq<seq<NavigationOption>>, row: seq<NavigationOption>)
    ensures Flatten(rows + [row]) == Flatten(rows) + row
  {
    assert (rows + [row])[..|rows|] == rows;
  }

  lemma TakeExtended(all: seq<NavigationOption>, from: nat, to: nat)
    requires from <= to <= |all|
    ensures all[..to] == all[..from] + all[from..to]
  {
  }

  lemma NextMultiple(k: nat, n: nat)
    ensures k * (n + 1) == k * n + k
  {
  }

  /** Nine options in rows of three take three rows, in rows of five two. */
  lemma RowCount(k: nat, n: nat, pointer: int)
    requires k == 3 || k == 5
    requires pointer == k * n && pointer - k < 9 <= pointer
    ensures k * (n - 1) < 9 <= k * n
    ensures k == 3 ==> n == 3
    ensures k == 5 ==> n == 2
  {
    assert k * (n - 1) == k * n - k;
  }
}

=== FILE: package_wrapper.dfy ===
/**
 * The on-disk form of an `AssetPackage`: a directory wrapper holding exactly two regular
 * files, `metadata.data` and `asset.data`.  The JSON encoder and decoder are a `Codec` of
 * functions; `RoundTrips` is the assumption that decoding inverts encoding.
 */
module PackageWrappers {
  import opened Results
  import opened Utf8
  import opened Urls
  import opened Assets
  import opened FileWrappers
  import opened AssetPackages

  const METADATA_FILENAME: string := "metadata.data"
  const ASSET_FILENAME: string := "asset.data"

  datatype Codec = Codec(
    encodeMetadata: AssetMetadata -> Option<Bytes>,
    decodeMetadata: Bytes -> Option<AssetMetadata>,
    encodeUnencrypted: UnencryptedAsset -> Option<Bytes>,
    decodeUnencrypted: Bytes -> Option<UnencryptedAsset>,
    encodeEncrypted: EncryptedAsset -> Option<Bytes>,
    decodeEncrypted: Bytes -> Option<EncryptedAsset>)

  /** Whatever the codec encodes, it decodes back to the same value. */
  ghost predicate RoundTrips(c: Codec) {
    && (forall m :: c.encodeMetadata(m).Some? ==> c.decodeMetadata(c.encodeMetadata(m).value) == Some(m))
    && (forall a :: c.encodeUnencrypted(a).Some? ==> c.decodeUnencrypted(c.encodeUnencrypted(a).value) == Some(a))
    && (forall a :: c.encodeEncrypted(a).Some? ==> c.decodeEncrypted(c.encodeEncrypted(a).value) == Some(a))
  }

  /** `encodeAsset`: the metadata's `encrypted` flag decides which concrete asset kind is expected. */
  function EncodeAsset(p: AssetPackage, c: Codec): (r: Option<Bytes>)
    ensures p.metadata.encrypted && p.asset.Encrypted? ==> r == c.encodeEncrypted(p.asset.sealed)
    ensures !p.metadata.encrypted && p.asset.Unencrypted? ==> r == c.encodeUnencrypted(p.asset.plain)
    ensures p.metadata.encrypted != p.asset.Encrypted? ==> r.None?
  {
    if p.metadata.encrypted then
      match p.asset
      case Encrypted(a) => c.encodeEncrypted(a)
      case Unencrypted(_) => None
    else
      match p.asset
      case Unencrypted(a) => c.encodeUnencrypted(a)
      case Encrypted(_) => None
  }

  /** `fileWrapper`. */
  function FileWrapperOf(p: AssetPackage, c: Codec): (r: Option<FileWrapper>)
    ensures r.Some? <==> c.encodeMetadata(p.metadata).Some? && EncodeAsset(p, c).Some?
    ensures p.metadata.encrypted != p.asset.Encrypted? ==> r.None?
    ensures r.Some? ==>
      && r.value.DirectoryWrapper?
      && r.value.entries.Keys == {METADATA_FILENAME, ASSET_FILENAME}
      && r.value.entries[METADATA_FILENAME] == RegularFile(c.encodeMetadata(p.metadata).value)
      && r.value.entries[ASSET_FILENAME] == RegularFile(EncodeAsset(p, c).value)
  {
    match c.encodeMetadata(p.metadata)
    case None => None
    case Some(encodedMetadata) =>
      match EncodeAsset(p, c)
      case None => None
      case Some(encodedAsset) =>
        Some(DirectoryWrapper(map[METADATA_FILENAME := RegularFile(encodedMetadata), ASSET_FILENAME := RegularFile(encodedAsset)]))
  }

  /** Builds the wrapper as the source does: an empty directory, then one regular file added at a time. */
  method BuildFileWrapper(p: AssetPackage, c: Codec) returns (r: Option<FileWrapper>)
    ensures r == FileWrapperOf(p, c)
  {
    var encodedMetadata := c.encodeMetadata(p.metadata);
    if encodedMetadata.None? {
      return None;
    }
    var encodedAsset := EncodeAsset(p, c);
    if encodedAsset.None? {
      return None;
    }
    var entries: map<string, FileWrapper> := map[];
    entries := entries[METADATA_FILENAME := RegularFile(encodedMetadata.value)];
    entries := entries[ASSET_FILENAME := RegularFile(encodedAsset.value)];
    r := Some(DirectoryWrapper(entries));
  }

  /** `fileWrappers?[name]?.regularFileContents`. */
  function Entry(w: FileWrapper, name: string): (r: Option<Bytes>)
    ensures r.Some? <==> w.DirectoryWrapper? && name in w.entries && w.entries[name].RegularFile?
    ensures r.Some? ==> r.value == w.entries[name].contents
  {
    if w.DirectoryWrapper? && name in w.entries && w.entries[name].RegularFile? then
      Some(w.entries[name].contents)
    else
      None
  }

  /**
   * `from(disk:with:)`: both entries must be regular files and the metadata must decode;
   * a package read back is loaded, located at `url`, and carries the decoded metadata.
   */
  function FromDisk(w: FileWrapper, url: Url, c: Codec): (r: Option<AssetPackage>)
    ensures Entry(w, METADATA_FILENAME).None? || Entry(w, ASSET_FILENAME).None? ==> r.None?
    ensures Entry(w, METADATA_FILENAME).Some? && c.decodeMetadata(Entry(w, METADATA_FILENAME).value).None? ==> r.None?
    ensures r.Some? ==> r.value.url == Some(url) && r.value.status == Loaded
    ensures r.Some? ==>
      Entry(w, METADATA_FILENAME).Some? && c.decodeMetadata(Entry(w, METADATA_FILENAME).value) == Some(r.value.metadata)
  {
    match Entry(w, METADATA_FILENAME)
    case None => None
    case Some(encodedMetadata) =>
      match c.decodeMetadata(encodedMetadata)
      case None => None
      case Some(metadata) =>
        match Entry(w, ASSET_FILENAME)
        case None => None
        case Some(encodedAsset) =>
          if metadata.encrypted && c.decodeEncrypted(encodedAsset).Some? then
            Some(Using(Encrypted(c.decodeEncrypted(encodedAsset).value), url, metadata))
          else if c.decodeUnencrypted(encodedAsset).Some? then
            Some(Using(Unencrypted(c.decodeUnencrypted(encodedAsset).value), url, metadata))
          else
            None
  }

  /**
   * `from(url:)`.  `onDisk` is what reading a wrapper at `url` gives; the remote branch
   * is not implemented in the source and yields nothing.
   */
  function FromUrl(url: Url, onDisk: Option<FileWrapper>, c: Codec): (p: Option<AssetPackage>)
    ensures !IsFileUrl(url) || onDisk.None? ==> p.None?
    ensures p.Some? ==> p.value.url == Some(url) && p.value.status == Loaded
  {
    if !IsFileUrl(url) then None
    else match onDisk
      case None => None
      case Some(w) => FromDisk(w, url, c)
  }

  /** The decoder builds packages as `from(asset:url:metadata:)` does when metadata is supplied. */
  lemma DecodedAsFromAsset(e: EncryptedAsset, u: UnencryptedAsset, url: Url, metadata: AssetMetadata, drawn: Fresh)
    ensures Using(Encrypted(e), url, metadata) == FromEncrypted(e, Some(url), Some(metadata), drawn)
    ensures Using(Unencrypted(u), url, metadata) == FromUnencrypted(u, Some(url), Some(metadata), drawn)
  {
  }

  /** Decoding fails when either entry is missing or is not a regular file, or the metadata does not decode. */
  lemma FromDiskNeedsBothEntries(w: FileWrapper, url: Url, c: Codec)
    ensures Entry(w, METADATA_FILENAME).None? ==> FromDisk(w, url, c).None?
    ensures Entry(w, ASSET_FILENAME).None? ==> FromDisk(w, url, c).None?
    ensures Entry(w, METADATA_FILENAME).Some? && c.decodeMetadata(Entry(w, METADATA_FILENAME).value).None?
            ==> FromDisk(w, url, c).None?
  {
  }

  /**
   * Which decoder is used: with `encrypted` set, the encrypted decoder is tried first and the
   * unencrypted one is the fallback; without it only the unencrypted decoder is tried.
   */
  lemma DecoderChoice(w: FileWrapper, url: Url, c: Codec, metadata: AssetMetadata, encodedAsset: Bytes)
    requires Entry(w, METADATA_FILENAME).Some? && c.decodeMetadata(Entry(w, METADATA_FILENAME).value) == Some(metadata)
    requires Entry(w, ASSET_FILENAME) == Some(encodedAsset)
    ensures metadata.encrypted && c.decodeEncrypted(encodedAsset).Some? ==>
      FromDisk(w, url, c) == Some(Using(Encrypted(c.decodeEncrypted(encodedAsset).value), url, metadata))
    ensures (!metadata.encrypted || c.decodeEncrypted(encodedAsset).None?) && c.decodeUnencrypted(encodedAsset).Some? ==>
      FromDisk(w, url, c) == Some(Using(Unencrypted(c.decodeUnencrypted(encodedAsset).value), url, metadata))
    ensures (!metadata.encrypted || c.decodeEncrypted(encodedAsset).None?) && c.decodeUnencrypted(encodedAsset).None? ==>
      FromDisk(w, url, c).None?
  {
  }

  /** Reading back a written package gives the same metadata and asset, now located at `url`. */
  lemma {:induction false} WrapperRoundTrip(p: AssetPackage, c: Codec, url: Url)
    requires RoundTrips(c)
    requires FileWrapperOf(p, c).Some?
    ensures FromDisk(FileWrapperOf(p, c).value, url, c) == Some(Using(p.asset, url, p.metadata))
  {
    var w := FileWrapperOf(p, c).value;
    var encodedMetadata := c.encodeMetadata(p.metadata).value;
    assert Entry(w, METADATA_FILENAME) == Some(encodedMetadata);
    assert c.decodeMetadata(encodedMetadata) == Some(p.metadata);
    assert Entry(w, ASSET_FILENAME) == EncodeAsset(p, c);
    match p.asset
    case Encrypted(a) =>
      assert c.decodeEncrypted(c.encodeEncrypted(a).value) == Some(a);
    case Unencrypted(a) =>
      assert c.decodeUnencrypted(c.encodeUnencrypted(a).value) == Some(a);
  }

  /** A package read from a file URL keeps its metadata and asset through a write and a read. */
  lemma UrlRoundTrip(p: AssetPackage, c: Codec, url: Url)
    requires RoundTrips(c) && IsFileUrl(url)
    requires FileWrapperOf(p, c).Some?
    ensures var q := FromUrl(url, FileWrapperOf(p, c), c);
      q.Some? && q.value.metadata == p.metadata && q.value.asset == p.asset && q.value.url == Some(url)
      && Same(q.value, p)
  {
    WrapperRoundTrip(p, c, url);
  }
}

=== FILE: repository.dfy ===
/**
 * The `Repository` base class: its error type, the containers it can address,
 * container-root resolution, the mapping of platform error codes, and the
 * branching of `fileExists` / `folderExists` / `loadFile` over the disk.
 * The disk itself is abstract: a map from URL to the kind of entry found there.
 */
module Repository {
  import opened Results
  import opened Urls
  import opened Utf8

  datatype FileRepositoryError =
    | UnableToLocateContainerRootFolder
    | UnableToAccessDisk
    | UnableToLoadDataFromFile
    | PermissionDenied
    | FileDoNotExist(name: string)
    | FolderAlreadyExist(name: string)
    | FolderDoNotExist(name: string)
    | Undefined

  /** Keys of the localisation table that `localizedDescription` looks up. */
  datatype LocalizationKey =
    | UnableToLocateRootFolderKey
    | UnableToAccessDiskKey
    | UnableToLoadDataFromFileKey
    | PermissionDeniedKey
    | FileDoNotExistKey
    | FolderAlreadyExistKey
    | FolderDoNotExistKey

  /**
   * `localizedDescription`, given the localisation table `localized`: plain cases give
   * their localised text, cases with a name give "<text> -> <name>!", `undefined`
   * gives a fixed fallback.
   */
  function Description(e: FileRepositoryError, localized: LocalizationKey -> string): (d: string)
    ensures e == UnableToAccessDisk ==> d == localized(UnableToAccessDiskKey)
    ensures e == UnableToLocateContainerRootFolder ==> d == localized(UnableToLocateRootFolderKey)
    ensures e == UnableToLoadDataFromFile ==> d == localized(UnableToLoadDataFromFileKey)
    ensures e == PermissionDenied ==> d == localized(PermissionDeniedKey)
    ensures e.FileDoNotExist? ==> d == localized(FileDoNotExistKey) + " -> " + e.name + "!"
    ensures e.FolderAlreadyExist? ==> d == localized(FolderAlreadyExistKey) + " -> " + e.name + "!"
    ensures e.FolderDoNotExist? ==> d == localized(FolderDoNotExistKey) + " -> " + e.name + "!"
    ensures e == Undefined ==> d == "Error not identified!"
  {
    match e
    case UnableToAccessDisk => localized(UnableToAccessDiskKey)
    case UnableToLocateContainerRootFolder => localized(UnableToLocateRootFolderKey)
    case UnableToLoadDataFromFile => localized(UnableToLoadDataFromFileKey)
    case PermissionDenied => localized(PermissionDeniedKey)
    case FileDoNotExist(name) => localized(FileDoNotExistKey) + " -> " + name + "!"
    case FolderAlreadyExist(name) => localized(FolderAlreadyExistKey) + " -> " + name + "!"
    case FolderDoNotExist(name) => localized(FolderDoNotExistKey) + " -> " + name + "!"
    case Undefined => "Error not identified!"
  }

  /** The error's case, without its payload. */
  function Case(e: FileRepositoryError): nat {
    match e
    case UnableToLocateContainerRootFolder => 0
    case UnableToAccessDisk => 1
    case UnableToLoadDataFromFile => 2
    case PermissionDenied => 3
    case FileDoNotExist(_) => 4
    case FolderAlreadyExist(_) => 5
    case FolderDoNotExist(_) => 6
    case Undefined => 7
  }

  function Payload(e: FileRepositoryError): string {
    if e.FileDoNotExist? || e.FolderAlreadyExist? || e.FolderDoNotExist? then e.name else ""
  }

  /** The synthesised `Equatable` conformance: same case and same associated string. */
  lemma ErrorEquality(a: FileRepositoryError, b: FileRepositoryError)
    ensures a == b <==> Case(a) == Case(b) && Payload(a) == Payload(b)
  {
  }

  /** Platform error codes: 257 (no permission to read) is `permissionDenied`, every other code `undefined`. */
  function ParseError(code: int): (e: FileRepositoryError)
    ensures e == PermissionDenied <==> code == 257
    ensures e == Undefined <==> code != 257
  {
    if code == 257 then PermissionDenied else Undefined
  }

  datatype EnabledContainer = Local | AppGroup | ICloud | Remote(baseUrl: Url)

  /**
   * What the platform provides to root resolution: the user's documents folder and
   * the lookup of an app-group container by its identifier.
   */
  datatype Platform = Platform(documents: Url, groupContainer: string -> Option<Url>)

  /**
   * `root(for:)`: the documents folder, except for the app group, which resolves to its
   * container when an identifier is configured and the platform knows that container.
   */
  function Root(container: EnabledContainer, appGroupId: Option<string>, platform: Platform): (root: Url)
    ensures container != AppGroup ==> root == platform.documents
    ensures container == AppGroup && appGroupId.Some? && platform.groupContainer(appGroupId.value).Some?
            ==> root == platform.groupContainer(appGroupId.value).value
    ensures container == AppGroup && (appGroupId.None? || platform.groupContainer(appGroupId.value).None?)
            ==> root == platform.documents
  {
    match container
    case Local => platform.documents
    case AppGroup =>
      (match appGroupId
       case None => platform.documents
       case Some(id) =>
         (match platform.groupContainer(id)
          case None => platform.documents
          case Some(group) => group))
    case _ => platform.documents
  }

  /**
   * What a repository hands out for a file: the `RepositoryFile` initialiser arguments,
   * a URL and possibly data already loaded.
   */
  datatype FileDescriptor = FileDescriptor(url: Url, preloaded: Option<Bytes>)

  datatype EntryKind = RegularFile | Directory

  /** The disk as the base class sees it through `FileManager.fileExists(atPath:isDirectory:)`. */
  type Disk = map<Url, EntryKind>

  /** `fileExists`: never a failure; true for any entry, file or directory. */
  function DiskFileExists(disk: Disk, name: Url): (r: Result<bool, FileRepositoryError>)
    ensures r.Success? && (r.value <==> name in disk)
  {
    Success(name in disk)
  }

  /** `folderExists`: never a failure; true only for an entry that is a directory. */
  function DiskFolderExists(disk: Disk, name: Url): (r: Result<bool, FileRepositoryError>)
    ensures r.Success?
    ensures r.value <==> name in disk && disk[name] == Directory
  {
    var present := name in disk;
    var isDir := present && disk[name] == Directory;
    Success(present && isDir)
  }

  /**
   * `loadFile`: a descriptor without preloaded data when something is at `name`,
   * otherwise `fileDoNotExist` naming only the last path component.
   */
  function DiskLoadFile(disk: Disk, name: Url): (r: Result<FileDescriptor, FileRepositoryError>)
    ensures name in disk <==> r.Success?
    ensures r.Success? ==> r.value == FileDescriptor(name, None)
    ensures r.Failure? ==> r.error == FileDoNotExist(LastComponent(name))
  {
    match DiskFileExists(disk, name)
    case Success(found) =>
      if found then Success(FileDescriptor(name, None)) else Failure(FileDoNotExist(LastComponent(name)))
    case Failure(_) => Failure(Undefined)
  }
}

=== FILE: repository_file.dfy ===
/**
 * `RepositoryFile`: a file's URL and a lazily loaded, memoised copy of its bytes.
 * Reading the disk is the loader; `onDisk` is what it would return at the moment of the
 * read (None when `Data(contentsOf:)` throws), and the ghost counter `loads` records how
 * many times the loader has run.
 */
module RepositoryFiles {
  import opened Results
  import opened Urls
  import opened Utf8
  import Repository

  class RepositoryFile {
    const url: Url
    var cache: Option<Bytes>
    ghost var loads: nat

    /** `init(url:)`: nothing cached yet. */
    constructor (url: Url)
      ensures this.url == url && cache == None && loads == 0
    {
      this.url := url;
      cache := None;
      loads := 0;
    }

    /** `init(url:data:)`: whatever data the caller already holds is cached. */
    constructor WithData(url: Url, data: Option<Bytes>)
      ensures this.url == url && cache == data && loads == 0
    {
      this.url := url;
      cache := data;
      loads := 0;
    }

    /** Builds the file a repository describes. */
    constructor FromDescriptor(d: Repository.FileDescriptor)
      ensures url == d.url && cache == d.preloaded && loads == 0
    {
      url := d.url;
      cache := d.preloaded;
      loads := 0;
    }

    /**
     * The `data` getter: a cached value is returned without running the loader;
     * otherwise the loader runs once and its result, even None, becomes the cache,
     * so after a failed load the next read tries again.
     */
    method Data(onDisk: Option<Bytes>) returns (d: Option<Bytes>)
      modifies this
      ensures old(cache).Some? ==> d == old(cache) && cache == old(cache) && loads == old(loads)
      ensures old(cache).None? ==> d == onDisk && cache == onDisk && loads == old(loads) + 1
    {
      if cache.Some? {
        return cache;
      }
      loads := loads + 1;
      cache := onDisk;
      d := cache;
    }

    /** `id` (Identifiable): the URL's absolute string. */
    function Id(): (id: string)
      ensures id == url
    {
      url
    }

    /** `description` (CustomStringConvertible): the same string as `id`. */
    function Description(): (text: string)
      ensures text == Id()
    {
      url
    }
  }

  /** A file built with data keeps serving that data whatever the disk holds, and never loads. */
  method ReadPreloaded(url: Url, data: Bytes, disk1: Option<Bytes>, disk2: Option<Bytes>)
    returns (first: Option<Bytes>, second: Option<Bytes>)
    ensures first == Some(data) && second == Some(data)
  {
    var f := new RepositoryFile.WithData(url, Some(data));
    first := f.Data(disk1);
    second := f.Data(disk2);
    assert f.loads == 0;
  }

  /** A file built from its URL alone loads on first read and then serves the cached value. */
  method ReadLazily(url: Url, disk1: Bytes, disk2: Option<Bytes>)
    returns (first: Option<Bytes>, second: Option<Bytes>)
    ensures first == Some(disk1) && second == Some(disk1)
  {
    var f := new RepositoryFile(url);
    first := f.Data(Some(disk1));
    second := f.Data(disk2);
    assert f.loads == 1;
  }

  /** A failed load is not memoised: the next read loads again and sees the new disk. */
  method ReadAfterFailedLoad(url: Url, disk2: Bytes)
    returns (first: Option<Bytes>, second: Option<Bytes>)
    ensures first == None && second == Some(disk2)
  {
    var f := new RepositoryFile(url);
    first := f.Data(None);
    second := f.Data(Some(disk2));
    assert f.loads == 2;
  }
}

=== FILE: results.dfy ===
/** Optional values and Swift's `Result<Success, Failure>`, as used throughout CloudVault. */
module Results {

  datatype Option<+T> = None | Some(value: T)

  datatype Result<+T, +E> = Success(value: T) | Failure(error: E) {

    /** Swift's `Result.flatMap`: continue with `k` on success, pass a failure through. */
    function FlatMap<U>(k: T -> Result<U, E>): (r: Result<U, E>)
      ensures Failure? ==> r == Failure(error)
      ensures Success? ==> r == k(value)
    {
      match this
      case Success(v) => k(v)
      case Failure(e) => Failure(e)
    }
  }
}

=== FILE: urls.dfy ===
/**
 * URLs as their absolute strings, and the few `URL` operations CloudVault relies on:
 * appending a path component or an extension, deleting or reading the last component,
 * the path extension, and the "is a file URL" test.
 */
module Urls {

  type Url = string

  predicate HasPrefix(s: string, prefix: string) {
    |prefix| <= |s| && s[..|prefix|] == prefix
  }

  predicate EndsWithSlash(u: Url) {
    |u| > 0 && u[|u| - 1] == '/'
  }

  /** A single path component: non-empty and free of slashes. */
  predicate IsComponent(c: string) {
    |c| > 0 && forall i :: 0 <= i < |c| ==> c[i] != '/'
  }

  /** Index of the last occurrence of `ch` in `s`, or -1 when there is none. */
  function LastIndexOf(s: string, ch: char): (i: int)
    ensures -1 <= i < |s|
    ensures 0 <= i ==> s[i] == ch
    ensures forall j :: i < j < |s| ==> s[j] != ch
  {
    if |s| == 0 then -1
    else if s[|s| - 1] == ch then |s| - 1
    else LastIndexOf(s[..|s| - 1], ch)
  }

  /** Directory form of a URL (`appendingPathComponent("/")`): it ends in exactly the slash it had, or one more. */
  function AsDirectory(u: Url): (d: Url)
    ensures EndsWithSlash(d)
    ensures EndsWithSlash(u) ==> d == u
    ensures !EndsWithSlash(u) ==> |d| == |u| + 1 && d[..|u|] == u
  {
    if EndsWithSlash(u) then u else u + "/"
  }

  /** `appendingPathComponent(c)`: `c` placed under the directory form of `u`. */
  function Appending(u: Url, c: string): (r: Url)
    ensures HasPrefix(r, AsDirectory(u)) && |r| == |AsDirectory(u)| + |c|
  {
    AsDirectory(u) + c
  }

  /** `appendingPathExtension(ext)`. */
  function AppendingExtension(u: Url, ext: string): (r: Url)
    ensures |r| == |u| + 1 + |ext| && HasPrefix(r, u)
    ensures r[|u|] == '.' && r[|u| + 1..] == ext
  {
    u + "." + ext
  }

  /** The URL without one trailing slash. */
  function Trimmed(u: Url): (t: Url)
    ensures !EndsWithSlash(u) ==> t == u
    ensures EndsWithSlash(u) ==> t + "/" == u
  {
    if EndsWithSlash(u) then u[..|u| - 1] else u
  }

  /** `lastPathComponent`: what follows the last slash, ignoring a trailing one. */
  function LastComponent(u: Url): (c: string)
    ensures forall i :: 0 <= i < |c| ==> c[i] != '/'
  {
    var t := Trimmed(u);
    t[LastIndexOf(t, '/') + 1..]
  }

  /** `deletingLastPathComponent()`: everything up to and including the slash before the last component. */
  function DeletingLastComponent(u: Url): (p: Url)
    ensures p == "" || EndsWithSlash(p)
  {
    var t := Trimmed(u);
    t[..LastIndexOf(t, '/') + 1]
  }

  /** `pathExtension`: what follows the last dot of the last component, or "" when it has none. */
  function PathExtension(u: Url): (ext: string)
  {
    var c := LastComponent(u);
    var dot := LastIndexOf(c, '.');
    if dot < 0 then "" else c[dot + 1..]
  }

  /** `isFileURL`: the URL uses the `file` scheme. */
  predicate IsFileUrl(u: Url) {
    HasPrefix(u, "file://")
  }

  lemma {:induction false} LastSlashOfAppending(d: Url, c: string)
    requires EndsWithSlash(d) && forall i :: 0 <= i < |c| ==> c[i] != '/'
    ensures LastIndexOf(d + c, '/') == |d| - 1
  {
    if |c| == 0 {
      assert d + c == d;
    } else {
      assert (d + c)[..|d + c| - 1] == d + c[..|c| - 1];
      LastSlashOfAppending(d, c[..|c| - 1]);
    }
  }

  /** Appending a component and reading the last component back gives that component. */
  lemma LastComponentOfAppending(u: Url, c: string)
    requires IsComponent(c)
    ensures LastComponent(Appending(u, c)) == c
  {
    var d := AsDirectory(u);
    assert Trimmed(d + c) == d + c;
    LastSlashOfAppending(d, c);
  }

  /** Appending a component and deleting it again gives the directory form of the original URL. */
  lemma ParentOfAppending(u: Url, c: string)
    requires IsComponent(c)
    ensures DeletingLastComponent(Appending(u, c)) == AsDirectory(u)
  {
    var d := AsDirectory(u);
    assert Trimmed(d + c) == d + c;
    LastSlashOfAppending(d, c);
    assert (d + c)[..|d|] == d;
  }
}

=== FILE: utf8.dfy ===
/**
 * Bytes and UTF-8 well-formedness.  `String(data:encoding: .utf8)` succeeds exactly
 * on well-formed UTF-8 (Table 3-7 of the Unicode Standard, equivalently RFC 3629),
 * and turning the decoded string back into `.utf8` data gives the same bytes.
 */
module Utf8 {

  type byte = x: int | 0 <= x < 256
  type Bytes = seq<byte>

  predicate InRange(b: byte, lo: int, hi: int) { lo <= b <= hi }

  predicate Continuation(b: byte) { InRange(b, 0x80, 0xBF) }

  /** Length of the well-formed scalar at the head of `s`, or 0 if the head is ill-formed. */
  function HeadLength(s: Bytes): (n: nat)
    ensures n <= 4 && n <= |s|
    ensures |s| == 0 ==> n == 0
  {
    if |s| == 0 then 0
    else if s[0] <= 0x7F then 1
    else if InRange(s[0], 0xC2, 0xDF) then
      if |s| >= 2 && Continuation(s[1]) then 2 else 0
    else if s[0] == 0xE0 then
      if |s| >= 3 && InRange(s[1], 0xA0, 0xBF) && Continuation(s[2]) then 3 else 0
    else if InRange(s[0], 0xE1, 0xEC) || InRange(s[0], 0xEE, 0xEF) then
      if |s| >= 3 && Continuation(s[1]) && Continuation(s[2]) then 3 else 0
    else if s[0] == 0xED then
      if |s| >= 3 && InRange(s[1], 0x80, 0x9F) && Continuation(s[2]) then 3 else 0
    else if s[0] == 0xF0 then
      if |s| >= 4 && InRange(s[1], 0x90, 0xBF) && Continuation(s[2]) && Continuation(s[3]) then 4 else 0
    else if InRange(s[0], 0xF1, 0xF3) then
      if |s| >= 4 && Continuation(s[1]) && Continuation(s[2]) && Continuation(s[3]) then 4 else 0
    else if s[0] == 0xF4 then
      if |s| >= 4 && InRange(s[1], 0x80, 0x8F) && Continuation(s[2]) && Continuation(s[3]) then 4 else 0
    else 0
  }

  /** `s` decodes as UTF-8: it splits into well-formed scalars. */
  predicate Valid(s: Bytes)
    decreases |s|
  {
    |s| == 0 || (HeadLength(s) > 0 && Valid(s[HeadLength(s)..]))
  }

  /** The head scalar only looks at its own bytes, so a suffix does not change it. */
  lemma HeadLengthOfPrefix(a: Bytes, b: Bytes)
    requires HeadLength(a) > 0
    ensures HeadLength(a + b) == HeadLength(a)
  {
    assert forall i :: 0 <= i < |a| ==> (a + b)[i] == a[i];
  }

  /** Well-formed UTF-8 is closed under concatenation. */
  lemma {:induction false} ConcatValid(a: Bytes, b: Bytes)
    requires Valid(a) && Valid(b)
    ensures Valid(a + b)
  {
    if |a| == 0 {
      assert a + b == b;
    } else {
      var n := HeadLength(a);
      HeadLengthOfPrefix(a, b);
      assert (a + b)[n..] == a[n..] + b;
      ConcatValid(a[n..], b);
    }
  }

  /** Conversely, a valid whole with a valid first part has a valid second part. */
  lemma {:induction false} SuffixValid(a: Bytes, b: Bytes)
    requires Valid(a) && Valid(a + b)
    ensures Valid(b)
  {
    if |a| == 0 {
      assert a + b == b;
    } else {
      var n := HeadLength(a);
      HeadLengthOfPrefix(a, b);
      assert (a + b)[n..] == a[n..] + b;
      SuffixValid(a[n..], b);
    }
  }

  /** A lone continuation byte (such as 0x80) is not UTF-8. */
  lemma LoneContinuationInvalid(b: byte)
    requires Continuation(b)
    ensures !Valid([b])
  {
  }

  /** ASCII text is UTF-8. */
  lemma {:induction false} AsciiValid(s: Bytes)
    requires forall i :: 0 <= i < |s| ==> s[i] <= 0x7F
    ensures Valid(s)
  {
    if |s| > 0 {
      assert HeadLength(s) == 1;
      AsciiValid(s[1..]);
    }
  }
}

=== FILE: valid_values.dfy ===
/**
 * `Result.getValidValues()` for results whose success value is a collection:
 * a failure gives the empty list, a success keeps the elements that cast to the
 * requested type (`compactMap { $0 as? T }`).  The dynamic cast is the parameter `cast`.
 */
module ValidValues {
  import opened Results

  /**
   * The `compactMap` over a collection: every element that casts contributes its cast,
   * and nothing else is kept.
   */
  function CompactMap<E, T>(values: seq<E>, cast: E -> Option<T>): (r: seq<T>)
    ensures |r| <= |values|
    ensures forall i :: 0 <= i < |values| && cast(values[i]).Some? ==> cast(values[i]).value in r
    ensures forall t :: t in r ==> exists i :: 0 <= i < |values| && cast(values[i]) == Some(t)
  {
    if |values| == 0 then []
    else
      var rest := CompactMap(values[1..], cast);
      KeptFromTail(values, cast, rest);
      match cast(values[0])
      case Some(t) => [t] + rest
      case None => rest
  }

  /** What the map keeps of a collection's tail it keeps of the whole collection. */
  lemma KeptFromTail<E, T>(values: seq<E>, cast: E -> Option<T>, rest: seq<T>)
    requires |values| > 0
    requires forall i :: 0 <= i < |values[1..]| && cast(values[1..][i]).Some? ==> cast(values[1..][i]).value in rest
    requires forall t :: t in rest ==> exists i :: 0 <= i < |values[1..]| && cast(values[1..][i]) == Some(t)
    ensures forall i :: 1 <= i < |values| && cast(values[i]).Some? ==> cast(values[i]).value in rest
    ensures forall t :: t in rest ==> exists i :: 0 <= i < |values| && cast(values[i]) == Some(t)
  {
    forall i | 1 <= i < |values| && cast(values[i]).Some?
      ensures cast(values[i]).value in rest
    {
      assert values[1..][i - 1] == values[i];
    }
    forall t | t in rest
      ensures exists i :: 0 <= i < |values| && cast(values[i]) == Some(t)
    {
      var j :| 0 <= j < |values[1..]| && cast(values[1..][j]) == Some(t);
      assert values[j + 1] == values[1..][j];
    }
  }

  function GetValidValues<E, T, Err>(r: Result<seq<E>, Err>, cast: E -> Option<T>): (values: seq<T>)
    ensures r.Failure? ==> values == []
    ensures r.Success? ==> |values| <= |r.value|
  {
    match r
    case Failure(_) => []
    case Success(collection) => CompactMap(collection, cast)
  }

  /** Order is kept: the map distributes over concatenation. */
  lemma {:induction false} CompactMapAppend<E, T>(a: seq<E>, b: seq<E>, cast: E -> Option<T>)
    ensures CompactMap(a + b, cast) == CompactMap(a, cast) + CompactMap(b, cast)
  {
    if |a| > 0 {
      assert (a + b)[1..] == a[1..] + b;
      CompactMapAppend(a[1..], b, cast);
    } else {
      assert a + b == b;
    }
  }

  /** A value is kept exactly when some element casts to it. */
  lemma CompactMapMembership<E, T>(values: seq<E>, cast: E -> Option<T>, t: T)
    ensures t in CompactMap(values, cast) <==> exists i :: 0 <= i < |values| && cast(values[i]) == Some(t)
  {
  }

  /** When every element casts, the result is the whole collection, element by element. */
  lemma {:induction false} CompactMapAllCast<E, T>(values: seq<E>, cast: E -> Option<T>)
    requires forall i :: 0 <= i < |values| ==> cast(values[i]).Some?
    ensures |CompactMap(values, cast)| == |values|
    ensures forall i :: 0 <= i < |values| ==> CompactMap(values, cast)[i] == cast(values[i]).value
  {
    if |values| > 0 {
      assert forall i :: 0 <= i < |values[1..]| ==> cast(values[1..][i]) == cast(values[i + 1]);
      CompactMapAllCast(values[1..], cast);
    }
  }

  /** Casting a collection to its own element type gives the collection back. */
  lemma GetValidValuesIdentity<E, Err>(r: Result<seq<E>, Err>)
    requires r.Success?
    ensures GetValidValues(r, (e: E) => Some(e)) == r.value
  {
    CompactMapAllCast(r.value, (e: E) => Some(e));
  }
}
